=== FILE: README.md ===
# Optivus mock backend and account screens, in Dafny

Optivus is a membership and referral platform with a React front end. Until a real server exists,
its front end talks to an in-memory mock backend, `services/api.ts`. Every call there reads and
mutates module-level variables:

- the list of mock users;
- the current-user object `mockUser`;
- the session and global transaction logs;
- the admin's pending-withdrawal and verification queues;
- the admin statistics;
- the one-slot pending registration.

This project models that backend as pure functions from a `Store` to a `Reply` (outcome plus the
store left behind). It also models the screens that drive it:

- the dashboard's withdrawal, verification and settings tabs;
- the password-strength meter;
- the dashboard's choice of tab from the address bar;
- the admin's user list.

Modules, one per file:

- `Domain`, `Store`: the entities (users, transactions, withdrawal and verification requests) and
  the backend state. `Session` records whether the current-user object is a stored user record
  itself (`Member(id)`, as after a user login: the two are one JavaScript object) or the separate
  admin object (`Operator`).
- `Validation`: the input validators: the injection screen, email, username, password.
- `Accounts`: login, admin login, registration and payment, username check, profile, PIN, 2FA.
- `Ledger`, `LedgerProperties`: withdrawal, its approval or denial by an admin, the admin's
  balance edit, and the bookkeeping properties across those calls.
- `Kyc`: verification submission and review, and the payout connection.
- `Pagination`: the two paged transaction fetches, with JavaScript `slice` semantics.
- `WithdrawTab`, `KycTab`, `SettingsTab`, `PasswordStrength`, `Dashboard`, `UserManagement`:
  the screens.
- `Wrappers`, `Text`, `Seqs`: `Option`/`Result`, and models of the JavaScript string and array
  methods used (`toLowerCase`, `includes`, `split`, `findIndex`, `splice`, `filter`).

Money is a whole number of pence. The clock readings an operation uses (`Date.now()` for fresh
ids, today's date) are parameters (`Stamp`, `millis`, `date`).

## Model

| member | source | states |
|---|---|---|
| Validation.ValidateInput | services/api.ts:15-29 | fails exactly when the non-empty value matches the injection pattern, with the field's "contains invalid characters" error; the empty string always passes |
| Validation.StandaloneKeywordRefused | services/api.ts:6-18 | `OR` as a whole word followed later by `=` trips the screen: `admin or x=1` is refused |
| Validation.EmbeddedKeywordAllowed | services/api.ts:6-18 | `OR` inside a longer word does not: `vendor=1` passes, though it holds `or` and an `=` |
| Validation.WordStringIsSafe | services/api.ts:6-18 | a string of letters, digits and underscores never trips the injection screen |
| Validation.EmailPatternMeaning | services/api.ts:37-38 | the email pattern accepts exactly the strings without whitespace that have one `@`, something before it, and a `.` strictly inside the part after it |
| Validation.ValidateEmail | services/api.ts:35-41 | passes iff the injection screen and the well-formedness test both pass; the injection error takes precedence over the format error |
| Validation.UsernamePatternIsSafe | services/api.ts:47-53 | a name the username pattern accepts can never be refused by the injection screen |
| Validation.ValidateUsername | services/api.ts:47-53 | passes iff the name has 3 to 20 word characters; the injection error comes first, otherwise the format error |
| Validation.ValidatePassword | services/api.ts:59-64 | passes iff the screen passes and the password has at least 8 characters; each failure carries its own error |
| Accounts.Login | services/api.ts:212-224 | succeeds iff some ordinary account has the address and the password is the shared one; the current user becomes the FIRST such record in list order; reports that a 2FA token is needed iff that account has 2FA on; a failure changes nothing |
| Accounts.AdminLogin | services/api.ts:226-232 | succeeds iff both fixed admin credentials match; the current user becomes the admin object; a failure changes nothing |
| Accounts.RegisterThenFinalize | services/api.ts:278-308 | the token registration hands out completes it with exactly the kept details: the new account carries those names, username and address, and the kept details are cleared; with no earlier account at that address, the new account then logs in with the shared password |
| Accounts.NewAccount | services/api.ts:283-304 | a new account takes its first name, last name, username and address from the details; it starts with no wallet, PayPal address, withdrawal gate, verification data or rejection reason, with zero balance, unverified, no PIN, no 2FA, no payout, active, as an ordinary user, with the referral code the upper-cased username plus `NEW` |
| Accounts.FinalizePayment | services/api.ts:283-308 | succeeds iff the token matches and details are kept; the new account is added to the list and appended to the listing order, and the kept details are cleared; nothing else changes |
| Accounts.FinalizeOnce | services/api.ts:283-308 | a registration completes at most once: a second payment with the same token is refused and changes nothing |
| Accounts.RegisteredUserCanLogIn | services/api.ts:212-224 | a completed registration, with no earlier account at that address, can log in with the shared password and becomes the current user |
| Accounts.UsernameAvailable | services/api.ts:322-327 | available iff the lower-cased name is none of the four fixed reserved names |
| Accounts.UsernameCaseInsensitive | services/api.ts:322-327 | two names that agree up to the case of ASCII letters are equally available |
| Accounts.ReservedNamesInAnyCase | services/api.ts:184 | `AlexD`, `Admin` and `SATOSHI` are reported taken and `alice` available: the four fixed names are taken in any mix of cases |
| Accounts.UpdateProfile | services/api.ts:450-453 | the current user's names are replaced and the updated current user is returned; no other record and no other part of the store (logs, queues, counter, pending registration, issued secret) changes |
| Accounts.SetPin | services/api.ts:456-462 | succeeds iff the code is the master code; then the current user has a PIN and nothing else changes, neither another record nor the logs, queues, counter, pending registration or issued secret; a failure changes nothing |
| Accounts.Enable2FA | services/api.ts:466-470 | returns the fixed secret and records it; nothing else in the store changes, so 2FA stays as it was |
| Accounts.Verify2FA | services/api.ts:472-478 | succeeds iff the token is the master code, whether or not a secret was issued; then the current user has 2FA on and nothing else changes; a failure changes nothing |
| Accounts.Disable2FA | services/api.ts:480-487 | succeeds iff the token is the master code; then the current user has 2FA off and nothing else changes; a failure changes nothing |
| Accounts.TwoFactorRoundTrip | services/api.ts:472-487 | enabling then disabling with a valid token leaves the current user as before with 2FA off, and every other record and the rest of the store untouched |
| Ledger.Refusal | services/api.ts:335-346 | the guards are checked in the order PIN, 2FA token (only when 2FA is on), crypto destination (only for crypto), balance, and the first that fails gives its error; none fails iff the request is admissible |
| Ledger.Withdraw | services/api.ts:333-381 | succeeds iff the request is admissible; a refusal carries the first failing guard's error and changes nothing. On success only the current user changes, debited by the amount and never below zero; one pending entry goes to the head of each log and one request to the head of the admin queue; the counter equals the queue length |
| Ledger.Refund | services/api.ts:575-579 | a denial credits the stored requester; it credits the current-user object again when it carries the requester's id, which is the same record under a member session |
| Ledger.ProcessWithdrawal | services/api.ts:538-606 | succeeds iff the request is queued and its requester stored; an unknown id changes nothing; an approval changes no balance; a denial credits the requester once, or twice when the requester is the signed-in member |
| Ledger.ProcessWithdrawalCorrected | services/api.ts:538-606 | the same resolution with the refund applied exactly once to the requester's record, and once to a distinct current-user object with the same id |
| Ledger.ResolutionEffects | services/api.ts:538-606 | for both resolutions: a found request leaves the queue, and when its requester is missing nothing else changes; a resolved request refreshes the pending counter; an approval marks the first matching pending global entry completed; a denial marks it failed and puts one reversal for the amount at the head of the global log |
| Ledger.AdminUpdateUser | services/api.ts:501-523 | an unknown user changes nothing. Otherwise only balance, status and withdrawal gate change, each to the supplied value or kept; the set of users is unchanged; a changed balance adds one completed adjustment for exactly the difference at the head of the global log |
| LedgerProperties.WithdrawIsLogged | services/api.ts:333-381 | an accepted withdrawal changes the global log's total by exactly the current user's balance change |
| LedgerProperties.AdminUpdateIsLogged | services/api.ts:501-523 | an admin edit changes the global log's total by exactly the edited user's balance change |
| LedgerProperties.ApprovalIsNeutral | services/api.ts:555-573 | an approval leaves every balance and the global log's total unchanged |
| LedgerProperties.DenialLogsRefund | services/api.ts:574-600 | a denial adds exactly the refunded amount to the global log's total |
| LedgerProperties.CorrectedDenialIsLogged | services/api.ts:574-600 | with the refund applied once, the requester's gain equals what the global log records |
| LedgerProperties.DenialDoubleCredits | services/api.ts:576-578 | as written, when the requester is the signed-in member, the record gains twice the amount while the log records it once |
| LedgerProperties.QueuedRequestResolves | services/api.ts:366-375 | the request a withdrawal queues is the one its id `wd_<millis>` resolves to |
| LedgerProperties.MemberWithdrawal | services/api.ts:333-381 | after a member's accepted withdrawal, the request is resolvable, belongs to the member, carries the amount, and the member's record is debited by it |
| LedgerProperties.WithdrawThenApprove | services/api.ts:333-606 | a member's withdrawal followed by its approval leaves the member debited by the amount |
| LedgerProperties.WithdrawThenDenyAsWritten | services/api.ts:333-606 | as written, a member's withdrawal denied while the member is signed in ends with the balance `amount` ABOVE where it started |
| LedgerProperties.WithdrawThenDenyCorrected | services/api.ts:333-606 | with the corrected denial, a member's withdrawal and its denial restore the balance exactly |
| LedgerProperties.DenialCreditsOnce | services/api.ts:574-600 | the corrected denial credits the requester exactly once; so does the as-written one under an admin session |
| LedgerProperties.AdminDenialCreditsOnce | services/api.ts:226-232 | after the admin logs in, the as-written denial credits the requester's record exactly once |
| LedgerProperties.WithdrawThenDenyAfterAdminLogin | services/api.ts:226-232 | once the admin has logged in, the as-written denial restores the member's balance exactly |
| LedgerProperties.ResolvesOnce | services/api.ts:539-549 | with unique ids, a request resolved once (or dropped as an orphan) is reported missing on a second attempt, which changes nothing |
| Kyc.Decided | services/api.ts:616-623 | an approval verifies and clears the reason; a rejection records the given reason, or the stock one when it is absent or empty; the submitted data is dropped either way; nothing else changes |
| Kyc.SubmitKyc | services/api.ts:416-445 | the current user becomes pending with the submitted data, no reason and the document location; apart from the verification queue, nothing but the current user changes (no other record, neither log, the withdrawal queue, the counter, the pending registration or the secret); the new request heads the queue and the user's earlier requests leave it, other requests keeping their order |
| Kyc.WithoutUserCounts | services/api.ts:429 | dropping a user's requests keeps every other request exactly as many times as it was queued, and none of that user's |
| Kyc.ProcessKyc | services/api.ts:611-636 | succeeds iff a request is queued and the user is stored. The record takes the decision, the first request of the user leaves the queue, and the signed-in admin object mirrors the decision when it carries that id (under a member session the current-user object is a stored record, so the admin object is untouched); otherwise nothing changes |
| Kyc.ConnectPayout | services/api.ts:411-414 | the current user becomes payout connected and nothing else changes, neither another record nor the logs, queues, counter, pending registration or secret; returns the onboarding link |
| Kyc.SubmitKeepsOnePerUser | services/api.ts:416-445 | a submission keeps the queue at one request per user |
| Kyc.SubmitThenApprove | services/api.ts:416-636 | a member's submission followed by its approval leaves the member verified with no data or reason, and the queue is the old one without the member's requests |
| Pagination.SlicePosition | services/api.ts:385 | a `slice` position: clamped to the length, negative ones counting back from the end and clamped at zero |
| Pagination.JsSlice | services/api.ts:385 | `slice` gives the entries between the two resolved positions, or nothing when they cross |
| Pagination.Paginate | services/api.ts:382-391 | the page number is echoed; at most `limit` entries; `totalPages` is the least page count covering the log; page `p >= 1` holds entries `(p-1)*limit` up to `p*limit` clipped to the log; page 0 is empty; a negative page reads from the end |
| Pagination.FetchTransactions | services/api.ts:382-391 | the page `Paginate` gives of the session log: the page number echoed, the least page count covering the log, and for pages from 1 exactly the slice from `(page-1)*limit` to `page*limit` |
| Pagination.FetchAllTransactions | services/api.ts:525-534 | the page `Paginate` gives of the global log: the page number echoed, the least page count covering the log, and for pages from 1 exactly the slice from `(page-1)*limit` to `page*limit` |
| Pagination.PagesInRangeAreFilled | services/api.ts:382-391 | each page from 1 to `totalPages` holds at least one entry |
| Pagination.PagesPastTheEndAreEmpty | services/api.ts:382-391 | each page beyond `totalPages` is empty |
| Pagination.PagesCoverLog | services/api.ts:382-391 | reading pages 1 to `totalPages` in turn gives back the whole log, in order and without gaps |
| WithdrawTab.PanelFor | pages/dashboard/tabs/WithdrawTab.tsx:139-163 | the form iff verified and connected; the Stripe prompt iff verified and not connected; the lock notice otherwise |
| WithdrawTab.PropsFor | pages/dashboard/tabs/WithdrawTab.tsx:142-146 | the form gets the fetched balance (0 when none) and the user's PIN and 2FA switches |
| WithdrawTab.RequestFrom | pages/dashboard/tabs/WithdrawTab.tsx:43-51 | the request is fiat with the form's amount and PIN, and carries the 2FA token iff 2FA is on |
| WithdrawTab.Submit | pages/dashboard/tabs/WithdrawTab.tsx:25-64 | without a PIN, or above the displayed balance, the form refuses without calling the backend; it calls the backend exactly otherwise, clearing its fields on success and showing the backend's message on failure |
| WithdrawTab.UpToDateBalanceNeverOverdraws | pages/dashboard/tabs/WithdrawTab.tsx:35-39 | with an up-to-date displayed balance the backend never refuses for lack of funds |
| WithdrawTab.StaleBalanceRefusedByBackend | services/api.ts:344-346 | a stale displayed balance above the real one lets the request through to the backend, which refuses it and changes nothing |
| WithdrawTab.AcceptedRequestClearsForm | pages/dashboard/tabs/WithdrawTab.tsx:53-57 | an admissible request empties the form, shows the success message and debits the current user |
| WithdrawTab.ConnectStripe | pages/dashboard/tabs/WithdrawTab.tsx:112-125 | the backend marks the payout connected and the local copy follows |
| WithdrawTab.ConnectingUnlocksForm | pages/dashboard/tabs/WithdrawTab.tsx:112-163 | a verified user who connects Stripe is shown the withdrawal form |
| KycTab.ReasonShown | pages/dashboard/tabs/KycTab.tsx:95-99 | the recorded reason, or the stock text when it is absent or empty; never empty |
| KycTab.ViewFor | pages/dashboard/tabs/KycTab.tsx:81-101 | the pending notice iff pending, the verified notice iff verified, otherwise the form, with the rejection notice iff rejected |
| KycTab.Submit | pages/dashboard/tabs/KycTab.tsx:61-79 | without a document or a connected payout it refuses without calling the backend; otherwise the backend records the submission and the local copy turns pending |
| KycTab.SubmissionShowsPending | pages/dashboard/tabs/KycTab.tsx:61-85 | after a submission goes through, the tab and the backend record both show pending |
| KycTab.ConnectStripe | pages/dashboard/tabs/KycTab.tsx:44-59 | the form's error notice is cleared and the rest of the form kept; the backend marks the payout connected; the local copy follows because the returned link is never empty |
| KycTab.ConnectingLeavesOnlyDocument | pages/dashboard/tabs/KycTab.tsx:44-59 | after connecting Stripe the submit button is blocked iff no document is chosen, and no error is shown |
| KycTab.ConnectClearsRefusal | pages/dashboard/tabs/KycTab.tsx:44-79 | a submission refused for a missing payout shows the prerequisite notice; connecting then clears it, and with a document chosen the form can be submitted |
| SettingsTab.SaveProfile | pages/dashboard/tabs/SettingsTab.tsx:26-39 | the backend update is made, and a signed-in local copy is replaced by the backend's current user |
| SettingsTab.SavedProfileMatchesBackend | context/AuthContext.tsx:203-210 | after saving, the local copy has the new names and the backend's values for every other field |
| SettingsTab.ChangePassword | pages/dashboard/tabs/SettingsTab.tsx:63-81 | mismatching new passwords are refused on the spot; otherwise success is shown and a sign-out is scheduled |
| SettingsTab.PinViewFor | pages/dashboard/tabs/SettingsTab.tsx:146-148 | the "PIN set" notice iff the user has a PIN, otherwise the current step |
| SettingsTab.SendToken | pages/dashboard/tabs/SettingsTab.tsx:106-127 | a PIN outside 4 to 6 characters, or one that does not match its confirmation, is refused; otherwise the card moves to the code step |
| SettingsTab.ConfirmPin | pages/dashboard/tabs/SettingsTab.tsx:129-144 | the backend's SetPin is called with the emailed code; on success the local copy has a PIN and the PIN fields are cleared; on failure the error is shown |
| SettingsTab.PinSetupFlow | pages/dashboard/tabs/SettingsTab.tsx:106-148 | both steps with a well-formed PIN and the master code leave a PIN set, locally and in the backend |
| SettingsTab.ChosenPinIsDiscarded | pages/dashboard/tabs/SettingsTab.tsx:129-144 | the chosen PIN never reaches the backend: any two PINs leave the same state |
| SettingsTab.Toggle | pages/dashboard/tabs/SettingsTab.tsx:181-201 | with 2FA on it opens the disable dialog without a backend call; with 2FA off it fetches the secret and opens the enable dialog |
| SettingsTab.SubmitCode | pages/dashboard/tabs/SettingsTab.tsx:203-231 | the enable dialog verifies, the disable dialog disables. On success the local copy follows and the dialog closes; on failure the error is shown |
| SettingsTab.EnableFlow | pages/dashboard/tabs/SettingsTab.tsx:181-216 | switching 2FA on with the master code turns it on locally and in the backend, and closes the dialog |
| SettingsTab.DisableFlow | pages/dashboard/tabs/SettingsTab.tsx:197-231 | switching 2FA off with the master code turns it off locally and in the backend, and closes the dialog |
| PasswordStrength.GetPasswordStrength | components/ui/PasswordStrength.tsx:8-25 | score 0 exactly for the empty password; "Too short" below 8 characters; otherwise a score of 1 to 3 labelled Weak, Medium or Strong |
| PasswordStrength.VariationsCountClasses | components/ui/PasswordStrength.tsx:13-17 | the four tests count exactly the distinct character classes the password uses |
| PasswordStrength.GradeByClasses | components/ui/PasswordStrength.tsx:13-24 | with n the number of classes plus one for more than 12 characters: Strong iff n >= 4, Medium iff n = 3, Weak iff n <= 2 |
| PasswordStrength.StrongNeedsThreeClasses | components/ui/PasswordStrength.tsx:13-24 | a Strong password uses at least three classes |
| PasswordStrength.AppendingNeverWeakens | components/ui/PasswordStrength.tsx:13-24 | typing more characters after 8 never lowers the score |
| PasswordStrength.SharedPasswordIsWeak | components/ui/PasswordStrength.tsx:8-25 | the mock accounts' shared password `password123` is graded Weak |
| PasswordStrength.AcceptedPasswordIsGraded | services/api.ts:59-64 | a password the sign-up validator accepts is graded Weak, Medium or Strong, never "Too short" |
| Dashboard.Segment | pages/dashboard/DashboardPage.tsx:30-31 | the candidate is never empty: the third path segment, or "overview" |
| Dashboard.TabFromPathAsWritten | pages/dashboard/DashboardPage.tsx:29-33 | as written, the result is the candidate when the tab table or its inherited properties know it, "overview" otherwise |
| Dashboard.TabFromPath | pages/dashboard/DashboardPage.tsx:29-33 | the result is always a tab: the candidate if it is one, "overview" otherwise |
| Dashboard.ReadingsAgreeOnOwnKeys | pages/dashboard/DashboardPage.tsx:32 | the two readings agree iff the candidate is not an inherited property name |
| Dashboard.InheritedNameSelected | pages/dashboard/DashboardPage.tsx:32 | as written, `/dashboard/constructor` and the like select a name that is no tab; the corrected reading shows the overview |
| Dashboard.PickedTabRoundTrip | pages/dashboard/DashboardPage.tsx:48-52 | picking a tab navigates to a path that reads back as that tab, under both readings |
| Dashboard.OnlyThirdSegmentMatters | pages/dashboard/DashboardPage.tsx:30-32 | the second segment is not checked and anything after the third is ignored |
| Dashboard.MissingSegmentShowsOverview | pages/dashboard/DashboardPage.tsx:31 | fewer than three segments, or an empty third, shows the overview |
| Dashboard.BareDashboardShowsOverview | pages/dashboard/DashboardPage.tsx:30-32 | a single segment after the leading slash (such as `/dashboard`) shows the overview |
| Dashboard.TrailingSlashShowsOverview | pages/dashboard/DashboardPage.tsx:30-32 | `/dashboard/` shows the overview |
| UserManagement.Listing | services/api.ts:499 | the admin list is every stored record, in listing order |
| UserManagement.FilterUsers | pages/admin/tabs/UserManagementTab.tsx:46-53 | keeps exactly the users whose lower-cased first name, last name, email or username contains the lower-cased term |
| UserManagement.FilterUsersCounts | pages/admin/tabs/UserManagementTab.tsx:46-53 | each matching user appears in the result as many times as in the list, and no other user appears |
| UserManagement.FilterKeepsOrder | pages/admin/tabs/UserManagementTab.tsx:46-53 | the search result is a subsequence of the list |
| UserManagement.EmptySearchKeepsAll | pages/admin/tabs/UserManagementTab.tsx:46-53 | an empty search shows every user |
| UserManagement.SearchIgnoresCase | pages/admin/tabs/UserManagementTab.tsx:46-53 | terms equal after lower-casing give the same result |
| UserManagement.ReplaceUser | pages/admin/tabs/UserManagementTab.tsx:55-57 | same length; entries with the edited id become the edited record, the rest are kept |
| UserManagement.ReplaceIdempotent | pages/admin/tabs/UserManagementTab.tsx:55-57 | replacing the same record twice is replacing it once |
| UserManagement.EditKeepsListingInStep | services/api.ts:501-523 | after an accepted admin edit, the locally replaced list equals the list the backend now returns |
| UserManagement.AppendUser | pages/admin/tabs/UserManagementTab.tsx:59-62 | the old list followed by the new user |
| UserManagement.RegistrationAppendsToListing | services/api.ts:283-308 | a completed registration appends the new account to the backend's list, as the local append does |
| UserManagement.CreatedUserInSearch | pages/admin/tabs/UserManagementTab.tsx:46-62 | a created user appears at the end of the search result iff it matches; earlier results are unchanged |

## Left out

- Web3 wallet sign-in and the 2FA login handshake (`mockLogin2FA`) are outside this model.
- The simulated network delay of the mock's request helper is left out; its calls complete, as the helper always does.
- The clock is left out. `Date.now()` and today's date are parameters.
- `Accounts.FinalizePayment` requires that the id built from the clock reading be fresh. The source would append a second record with a duplicate id, which a map keyed by id cannot hold.
- Amounts are whole pence. `parseFloat`, `NaN` and `toFixed` formatting are not modelled. Transaction descriptions are a `Memo` datatype instead of formatted text.
- Case mapping covers only ASCII letters, where JavaScript maps all of Unicode. Strings are assumed to lie in the Basic Multilingual Plane, where one `char` is one JavaScript code unit; outside it JavaScript's `length` counts two per character, which would shift the length bounds.
- `Accounts.UpdateProfile` models `Object.assign` only with the first and last name, the fields the profile form sends. Arbitrary partial records are not modelled.
- `Ledger.AdminUpdateUser` applies only the balance, status and withdrawal gate, the fields the admin edit form sends. Arbitrary partial records are not modelled.
- `Pagination.Paginate` requires `limit >= 1`. Every caller passes the default of 10; a zero or negative limit would give an infinite or negative page count.
- The commission engine, the team tree, the admin statistics and the fetch-only endpoints are not modelled. These are the balance, stats, team, referral and pending-queue fetches, which return literals or a whole array.
- The forgot/reset password, email verification and contact endpoints are not modelled, and neither is the admin's user creation: the creation modal calls `mockAdminCreateUser`, which `services/api.ts` does not define. `UserManagement.AppendUser` models only the list update.
- `SettingsTab.ChangePassword`: the backend stores no password, so the call is modelled as always acknowledging. The two-second delay before sign-out is only a flag.
- `SettingsTab.SendToken` checks only the PIN's length, as the form does, and not that it is digits.
- The screens' local user is modelled as a value of its own, kept in step by the screen's update after each call. In the source, sign-in stores the backend's own current-user object (the request helper resolves by reference), so the backend's writes reach the screen's copy directly until its first spread-copy update; every such write is followed by an update with the same values, so no modelled outcome differs. The admin list from `mockFetchAllUsers` shares the stored records in the same way.
- Loading flags, `window.open` of the onboarding link and the screens' navigation effects other than the tab path are not modelled.
- The admin withdrawal and verification screens (`WithdrawalManagementTab.tsx`, `KycManagementTab.tsx`) are not part of this model. The backend operations they call are.
- The orphan path of `mockProcessWithdrawal` removes the request without refreshing the pending counter, as written. Only the other paths state the counter.

## Findings

| source | as written | input that shows it | evidently intended | confidence | as-written member | corrected member |
|---|---|---|---|---|---|---|
| services/api.ts:576-578 | a denied withdrawal credits the stored requester, then credits `mockUser` again when it carries the requester's id; after a user login `mockUser` IS that stored record | a member logs in, withdraws 100, and the request is denied while that session is current (the initial state already makes `mockUser` the first stored user): the balance ends 100 above its start while the global log records one refund of 100 | refund the requester exactly once, and mirror the refund on a distinct current-user object | not executed; needs the denial to run while the requester's own session is current, which the admin screen reaches only through the initial binding | LedgerProperties.WithdrawThenDenyAsWritten | LedgerProperties.WithdrawThenDenyCorrected |
| pages/dashboard/DashboardPage.tsx:32 | `TABS[tab]` is truthy for names every object inherits, so they pass as tabs | the path `/dashboard/constructor` selects `constructor` as the active tab, which names no tab | accept only the table's own keys, falling back to the overview | not executed | Dashboard.InheritedNameSelected | Dashboard.PickedTabRoundTrip |

=== FILE: accounts.dfy ===
/**
 * Sign-in, registration and the account security switches of the mock backend: `mockLogin`,
 * `mockAdminLogin`, `mockRegister`, `mockFinalizePayment`, `mockCheckUsername`, `mockUpdateProfile`,
 * `mockSetPin` and the three 2FA endpoints.
 */
module Accounts {
  import opened Wrappers
  import opened Domain
  import opened Store
  import Seqs
  import Text

  /** The one password every mock user account accepts. */
  const SharedPassword: string := "password123"

  const AdminEmail: string := "admin@optivus.com"
  const AdminPassword: string := "adminpassword"

  /** The token `mockRegister` hands out and `mockFinalizePayment` expects back. */
  const PaymentToken: string := "temp_jwt_for_payment"

  /** The names `mockCheckUsername` reports as taken, in lower case; registering never adds to them. */
  const ReservedUsernames: seq<string> := ["alexd", "satoshi", "vitalik", "admin"]

  /** The fixed secret `mockEnable2FA` reports. */
  const TwoFactorSecret: string := "JBSWY3DPEHPK3PXP"

  datatype LoginResult = TwoFactorRequired | LoggedIn(user: User)

  // ---------------------------------------------------------------------------------------
  // Signing in.
  // ---------------------------------------------------------------------------------------

  /** `id` names a stored ordinary user account with the address `email`. */
  predicate IsAccount(st: Store, id: UserId, email: string) {
    id in st.users && st.users[id].email == email && st.users[id].role == UserRole
  }

  /** The listing position of the first ordinary account with the address `email`, or -1. */
  function FindAccount(st: Store, email: string): int {
    Seqs.FirstIndex(st.order, (id: UserId) => IsAccount(st, id, email))
  }

  /**
   * `mockLogin`: the first ordinary account in the listing with this address, and the shared
   * password. On success the current user becomes that stored record itself; an account with
   * 2FA switched on only reports that a token is required.
   */
  function Login(st: Store, email: string, password: string): (r: Reply<LoginResult>)
    requires Valid(st)
    ensures Valid(r.after)
    ensures r.outcome.Ok? <==>
              (exists k | 0 <= k < |st.order| :: IsAccount(st, st.order[k], email)) && password == SharedPassword
    ensures r.outcome.Err? ==> r == Reply(Err(InvalidCredentials), st)
    ensures r.outcome.Ok? ==>
              && r.after.session.Member?
              && r.after == st.(session := r.after.session)
              && IsAccount(st, r.after.session.id, email)
              && (exists k | 0 <= k < |st.order| :: st.order[k] == r.after.session.id
                    && forall j | 0 <= j < k :: !IsAccount(st, st.order[j], email))
              && (Current(r.after).is2faEnabled <==> r.outcome.value == TwoFactorRequired)
              && (!Current(r.after).is2faEnabled ==> r.outcome.value == LoggedIn(Current(r.after)))
  {
    var k := FindAccount(st, email);
    if k == -1 || password != SharedPassword then Reply(Err(InvalidCredentials), st)
    else
      var id := st.order[k];
      var u := st.users[id];
      Reply(Ok(if u.is2faEnabled then TwoFactorRequired else LoggedIn(u)), st.(session := Member(id)))
  }

  /** `mockAdminLogin`: fixed credentials; the current user becomes the separate admin object. */
  function AdminLogin(st: Store, email: string, password: string): (r: Reply<User>)
    requires Valid(st)
    ensures Valid(r.after)
    ensures r.outcome.Ok? <==> email == AdminEmail && password == AdminPassword
    ensures r.outcome.Err? ==> r == Reply(Err(InvalidAdminCredentials), st)
    ensures r.outcome.Ok? ==> r.after == st.(session := Operator) && r.outcome.value == Current(r.after)
  {
    if email == AdminEmail && password == AdminPassword then Reply(Ok(st.admin), st.(session := Operator))
    else Reply(Err(InvalidAdminCredentials), st)
  }

  // ---------------------------------------------------------------------------------------
  // Registration.
  // ---------------------------------------------------------------------------------------

  /**
   * `mockRegister`: keeps the details (replacing any earlier ones) and hands out the payment token.
   * It only sets up the state `FinalizePayment` consumes; `RegisterThenFinalize` states what it means.
   */
  function Register(st: Store, details: Registration): (r: Reply<string>)
    ensures r.outcome == Ok(PaymentToken)
    ensures r.after == st.(registration := Some(details))
  {
    Reply(Ok(PaymentToken), st.(registration := Some(details)))
  }

  /** The account a completed registration creates. */
  function NewAccount(id: UserId, details: Registration): (u: User)
    ensures u.id == id && u.balance == 0 && u.role == UserRole && u.status == Active
    ensures u.kycStatus == Unverified && !u.hasPin && !u.is2faEnabled && !u.payoutConnected && !u.emailVerified
    ensures u.firstName == details.firstName && u.lastName == details.lastName
    ensures u.email == details.email && u.username == details.username
    ensures u.walletAddress == None && u.paypalEmail == None && u.withdrawalStatus == None
    ensures u.kycData == None && u.kycRejectionReason == None
    ensures u.referralCode == Text.ToUpper(details.username) + "NEW"
  {
    User(id, details.firstName, details.lastName, details.username, details.email, false,
         Text.ToUpper(details.username) + "NEW", Unverified, None, None, false, false, false,
         UserRole, Active, 0, None, None, None)
  }

  /** The id a registration completed at clock reading `millis` receives. */
  function NewUserId(millis: string): UserId {
    "user_" + millis
  }

  /**
   * `mockFinalizePayment`: with the right token and kept details, appends a fresh account to the
   * user list and forgets the details, so the same registration cannot complete twice.
   */
  function FinalizePayment(st: Store, token: string, millis: string): (r: Reply<User>)
    requires Valid(st) && NewUserId(millis) !in st.users
    ensures Valid(r.after)
    ensures r.outcome.Ok? <==> token == PaymentToken && st.registration.Some?
    ensures r.outcome.Err? ==> r == Reply(Err(InvalidPaymentToken), st)
    ensures r.outcome.Ok? ==>
              var id := NewUserId(millis);
              && r.outcome.value == NewAccount(id, st.registration.value)
              && r.after.users == st.users[id := r.outcome.value]
              && r.after.order == st.order + [id]
              && r.after.registration == None
              && r.after == st.(users := r.after.users, order := r.after.order, registration := None)
  {
    if token == PaymentToken && st.registration.Some? then
      var id := NewUserId(millis);
      var u := NewAccount(id, st.registration.value);
      Reply(Ok(u), st.(users := st.users[id := u], order := st.order + [id], registration := None))
    else Reply(Err(InvalidPaymentToken), st)
  }

  /** `mockCheckUsername`: a name is available unless its lower-case form is one of the reserved names. */
  function UsernameAvailable(username: string): (available: bool)
    ensures available <==> forall k | 0 <= k < |ReservedUsernames| :: ReservedUsernames[k] != Text.ToLower(username)
  {
    Text.ToLower(username) !in ReservedUsernames
  }

  // ---------------------------------------------------------------------------------------
  // Security switches of the current user.
  // ---------------------------------------------------------------------------------------

  /** `mockUpdateProfile` as the profile form calls it: the current user's first and last name are replaced. */
  function UpdateProfile(st: Store, firstName: string, lastName: string): (r: Reply<User>)
    requires Valid(st)
    ensures Valid(r.after)
    ensures r.outcome == Ok(Current(r.after))
    ensures Current(r.after) == Current(st).(firstName := firstName, lastName := lastName)
    ensures OnlyCurrentTouched(st, r.after)
  {
    var st' := WithCurrent(st, Current(st).(firstName := firstName, lastName := lastName));
    Reply(Ok(Current(st')), st')
  }

  /** `mockSetPin`: the emailed code must be the master code; then the current user has a PIN. */
  function SetPin(st: Store, code: string): (r: Reply<string>)
    requires Valid(st)
    ensures Valid(r.after)
    ensures r.outcome.Ok? <==> CodeValid(code)
    ensures r.outcome.Err? ==> r == Reply(Err(InvalidVerificationCode), st)
    ensures r.outcome.Ok? ==>
              && Current(r.after) == Current(st).(hasPin := true)
              && OnlyCurrentTouched(st, r.after)
  {
    if CodeValid(code) then Reply(Ok("PIN has been set successfully."), WithCurrent(st, Current(st).(hasPin := true)))
    else Reply(Err(InvalidVerificationCode), st)
  }

  /**
   * `mockEnable2FA`: issues the fixed secret. 2FA is not switched on until a token is verified.
   */
  function Enable2FA(st: Store): (r: Reply<string>)
    requires Valid(st)
    ensures Valid(r.after) && r.outcome == Ok(TwoFactorSecret)
    ensures r.after.twoFactorSecret == Some(TwoFactorSecret)
    ensures r.after.(twoFactorSecret := st.twoFactorSecret) == st
    ensures Current(r.after) == Current(st)
  {
    Reply(Ok(TwoFactorSecret), st.(twoFactorSecret := Some(TwoFactorSecret)))
  }

  /**
   * Switches 2FA of the current user to `on` when `token` is the master code. The issued secret
   * plays no part: a token is accepted whether or not a secret was ever issued.
   */
  function Set2FA(st: Store, token: string, on: bool): (r: Reply<string>)
    requires Valid(st)
    ensures Valid(r.after)
    ensures r.outcome.Ok? <==> CodeValid(token)
    ensures r.outcome.Err? ==> r == Reply(Err(InvalidTwoFactorToken), st)
    ensures r.outcome.Ok? ==>
              && Current(r.after) == Current(st).(is2faEnabled := on)
              && OnlyCurrentTouched(st, r.after)
  {
    if CodeValid(token) then
      Reply(Ok(if on then "2FA enabled successfully." else "2FA disabled successfully."),
            WithCurrent(st, Current(st).(is2faEnabled := on)))
    else Reply(Err(InvalidTwoFactorToken), st)
  }

  /** `mockVerify2FA`. */
  function Verify2FA(st: Store, token: string): (r: Reply<string>)
    requires Valid(st)
    ensures Valid(r.after)
    ensures r.outcome.Ok? <==> CodeValid(token)
    ensures r.outcome.Err? ==> r == Reply(Err(InvalidTwoFactorToken), st)
    ensures r.outcome.Ok? ==>
              && Current(r.after) == Current(st).(is2faEnabled := true)
              && OnlyCurrentTouched(st, r.after)
  {
    Set2FA(st, token, true)
  }

  /** `mockDisable2FA`. */
  function Disable2FA(st: Store, token: string): (r: Reply<string>)
    requires Valid(st)
    ensures Valid(r.after)
    ensures r.outcome.Ok? <==> CodeValid(token)
    ensures r.outcome.Err? ==> r == Reply(Err(InvalidTwoFactorToken), st)
    ensures r.outcome.Ok? ==>
              && Current(r.after) == Current(st).(is2faEnabled := false)
              && OnlyCurrentTouched(st, r.after)
  {
    Set2FA(st, token, false)
  }

  // ---------------------------------------------------------------------------------------
  // Properties across calls.
  // ---------------------------------------------------------------------------------------

  /** A registration completes at most once: the kept details are gone after the first payment. */
  lemma FinalizeOnce(st: Store, token: string, first: string, second: string)
    requires Valid(st) && NewUserId(first) !in st.users && first != second
    requires NewUserId(second) !in st.users
    ensures var fin := FinalizePayment(st, token, first);
            fin.outcome.Ok? ==>
              && NewUserId(second) !in fin.after.users
              && FinalizePayment(fin.after, token, second) == Reply(Err(InvalidPaymentToken), fin.after)
  {
    var fin := FinalizePayment(st, token, first);
    if fin.outcome.Ok? {
      assert NewUserId(second) != NewUserId(first) by {
        assert NewUserId(second)[5..] == second && NewUserId(first)[5..] == first;
      }
    }
  }

  /**
   * A completed registration can sign in with its address and the shared password, provided no
   * earlier ordinary account uses the same address (sign-in picks the first match in the listing,
   * and the new account is listed last).
   */
  lemma RegisteredUserCanLogIn(st: Store, millis: string)
    requires Valid(st) && NewUserId(millis) !in st.users && st.registration.Some?
    requires forall k | 0 <= k < |st.order| :: !IsAccount(st, st.order[k], st.registration.value.email)
    ensures var fin := FinalizePayment(st, PaymentToken, millis);
            var r := Login(fin.after, st.registration.value.email, SharedPassword);
            && fin.outcome.Ok?
            && r.outcome == Ok(LoggedIn(fin.outcome.value))
            && r.after.session == Member(NewUserId(millis))
  {
    var email := st.registration.value.email;
    var id := NewUserId(millis);
    var fin := FinalizePayment(st, PaymentToken, millis);
    var after := fin.after;
    assert after.order == st.order + [id];
    forall k | 0 <= k < |st.order|
      ensures !IsAccount(after, after.order[k], email)
    {
      assert after.order[k] == st.order[k] && st.order[k] in st.users && st.order[k] != id;
    }
    assert IsAccount(after, after.order[|st.order|], email);
    var r := Login(after, email, SharedPassword);
    var k :| 0 <= k < |after.order| && after.order[k] == r.after.session.id
               && forall j | 0 <= j < k :: !IsAccount(after, after.order[j], email);
  }

  /** Whether a name is available depends only on its lower-case form. */
  lemma UsernameCaseInsensitive(a: string, b: string)
    requires |a| == |b| && forall i | 0 <= i < |a| :: Text.LowerChar(a[i]) == Text.LowerChar(b[i])
    ensures UsernameAvailable(a) == UsernameAvailable(b)
  {
    assert Text.ToLower(a) == Text.ToLower(b);
  }

  /** The reserved names are taken in any mix of cases; a name outside the list is free. */
  lemma ReservedNamesInAnyCase()
    ensures !UsernameAvailable("AlexD") && !UsernameAvailable("Admin") && !UsernameAvailable("SATOSHI")
    ensures UsernameAvailable("alice")
  {
    assert Text.ToLower("AlexD") == "alexd";
    assert Text.ToLower("Admin") == "admin";
    assert Text.ToLower("SATOSHI") == "satoshi";
    assert Text.ToLower("alice") == "alice";
  }

  /**
   * What `mockRegister` keeps is what `mockFinalizePayment` turns into an account: the token it
   * hands out completes the registration with exactly those details, and the new account can then
   * sign in with its address and the shared password when no earlier account uses that address.
   */
  lemma RegisterThenFinalize(st: Store, details: Registration, millis: string)
    requires Valid(st) && NewUserId(millis) !in st.users
    ensures var reg := Register(st, details);
            var fin := FinalizePayment(reg.after, reg.outcome.value, millis);
            && fin.outcome == Ok(NewAccount(NewUserId(millis), details))
            && fin.after.registration == None
    ensures (forall k | 0 <= k < |st.order| :: !IsAccount(st, st.order[k], details.email)) ==>
              var fin := FinalizePayment(Register(st, details).after, PaymentToken, millis);
              Login(fin.after, details.email, SharedPassword).outcome == Ok(LoggedIn(NewAccount(NewUserId(millis), details)))
  {
    var reg := Register(st, details);
    if forall k | 0 <= k < |st.order| :: !IsAccount(st, st.order[k], details.email) {
      RegisteredUserCanLogIn(reg.after, millis);
    }
  }

  /** Verifying and then disabling 2FA with the master code leaves the current user with 2FA off and nothing else changed. */
  lemma TwoFactorRoundTrip(st: Store, token: string)
    requires Valid(st) && CodeValid(token)
    ensures var on := Verify2FA(st, token).after;
            var off := Disable2FA(on, token).after;
            && Current(off) == Current(st).(is2faEnabled := false)
            && OnlyCurrentTouched(st, off)
  {
    var on := Verify2FA(st, token).after;
    var off := Disable2FA(on, token).after;
    assert Set2FA(on, token, false).after == off;
  }
}

=== FILE: dashboard.dfy ===
/**
 * The member dashboard's choice of tab from the address bar (`getTabFromPath`): the third
 * `/`-separated segment of the path, if it names a tab, and the overview otherwise.
 */
module Dashboard {
  import Text

  /** The keys of the dashboard's tab table. */
  const Tabs: set<string> := {"overview", "team", "withdraw", "history", "kyc", "settings"}

  /** The accessor-related properties of `Object.prototype`. */
  const AccessorKeys: set<string> :=
    {"__defineGetter__", "__defineSetter__", "__lookupGetter__", "__lookupSetter__", "__proto__"}

  /** The ordinary methods of `Object.prototype`. */
  const MethodKeys: set<string> :=
    {"constructor", "hasOwnProperty", "isPrototypeOf", "propertyIsEnumerable", "toString", "valueOf", "toLocaleString"}

  /**
   * The property names every plain JavaScript object inherits from `Object.prototype`; looking any
   * of them up in the tab table gives a truthy value although none is a tab.
   */
  const InheritedKeys: set<string> := AccessorKeys + MethodKeys

  /** The candidate tab name: the third segment of the path when there is one and it is not empty. */
  function Segment(path: string): (s: string)
    ensures s != ""
  {
    var parts := Text.Split(path, '/');
    if |parts| > 2 && parts[2] != "" then parts[2] else "overview"
  }

  /** The path the dashboard navigates to when a tab is picked in the sidebar. */
  function PathOf(tab: string): string {
    "/dashboard/" + tab
  }

  /**
   * The tab lookup as written: a candidate is accepted when the table gives a truthy value for it,
   * which holds for its own keys and for the names it inherits.
   */
  function TabFromPathAsWritten(path: string): (t: string)
    ensures t in Tabs + InheritedKeys
    ensures Segment(path) in Tabs + InheritedKeys ==> t == Segment(path)
    ensures Segment(path) !in Tabs + InheritedKeys ==> t == "overview"
  {
    var candidate := Segment(path);
    if candidate in Tabs || candidate in InheritedKeys then candidate else "overview"
  }

  /** The tab lookup on the table's own keys only: the result is always a tab. */
  function TabFromPath(path: string): (t: string)
    ensures t in Tabs
    ensures Segment(path) in Tabs ==> t == Segment(path)
    ensures Segment(path) !in Tabs ==> t == "overview"
  {
    var candidate := Segment(path);
    if candidate in Tabs then candidate else "overview"
  }

  /** The two readings agree except on paths whose candidate is an inherited name. */
  lemma ReadingsAgreeOnOwnKeys(path: string)
    ensures TabFromPath(path) == TabFromPathAsWritten(path) <==> Segment(path) !in InheritedKeys
  {
    assert Tabs !! InheritedKeys;
  }

  /** The pieces of `"/" + first + "/" + second + rest` when neither name holds a slash. */
  lemma ThirdSegment(first: string, second: string, rest: string)
    requires Text.Free(first, '/') && Text.Free(second, '/')
    requires rest == [] || rest[0] == '/'
    ensures var parts := Text.Split("/" + first + "/" + second + rest, '/');
            |parts| > 2 && parts[0] == "" && parts[1] == first && parts[2] == second
  {
    var path := "/" + first + "/" + second + rest;
    if rest == [] {
      Text.SplitFree(second, '/');
      Text.SplitAfterHead(first, second, '/');
      Text.SplitAfterHead("", first + "/" + second, '/');
      assert path == "" + "/" + (first + "/" + second);
      assert first + "/" + second == first + ['/'] + second;
      assert "" + "/" + (first + "/" + second) == "" + ['/'] + (first + "/" + second);
    } else {
      Text.SplitAfterHead(second, rest[1..], '/');
      var tail := second + "/" + rest[1..];
      assert second + ['/'] + rest[1..] == tail;
      Text.SplitAfterHead(first, tail, '/');
      assert first + ['/'] + tail == first + "/" + tail;
      Text.SplitAfterHead("", first + "/" + tail, '/');
      assert path == "" + ['/'] + (first + "/" + tail);
    }
  }

  /** The candidate read from the path of a slash-free name is that name, or the overview for the empty name. */
  lemma SegmentOfPath(name: string)
    requires Text.Free(name, '/')
    ensures Segment(PathOf(name)) == if name == "" then "overview" else name
  {
    assert Text.Free("dashboard", '/');
    ThirdSegment("dashboard", name, "");
    assert PathOf(name) == "/" + "dashboard" + "/" + name + "";
  }

  /**
   * A path naming an inherited property selects that name as written, though it is not a tab;
   * the own-key reading shows the overview. `/dashboard/constructor` is one such path.
   */
  lemma InheritedNameSelected(name: string)
    requires name in InheritedKeys
    ensures TabFromPathAsWritten(PathOf(name)) == name
    ensures name !in Tabs
    ensures TabFromPath(PathOf(name)) == "overview"
  {
    InheritedNamesAreSegments(name);
    SegmentOfPath(name);
  }

  /** Every inherited name is a non-empty, slash-free path segment that names no tab. */
  lemma InheritedNamesAreSegments(name: string)
    requires name in InheritedKeys
    ensures name != "" && Text.Free(name, '/') && name !in Tabs
  {
    assert Tabs !! InheritedKeys;
    if name in AccessorKeys {
      AccessorKeysAreSegments(name);
    } else {
      MethodKeysAreSegments(name);
    }
  }

  lemma AccessorKeysAreSegments(name: string)
    requires name in AccessorKeys
    ensures name != "" && Text.Free(name, '/')
  {
  }

  lemma MethodKeysAreSegments(name: string)
    requires name in MethodKeys
    ensures name != "" && Text.Free(name, '/')
  {
  }

  /** Picking a tab in the sidebar and reading the path back gives the same tab. */
  lemma PickedTabRoundTrip(tab: string)
    requires tab in Tabs
    ensures TabFromPath(PathOf(tab)) == tab
    ensures TabFromPathAsWritten(PathOf(tab)) == tab
  {
    assert Text.Free(tab, '/');
    SegmentOfPath(tab);
  }

  /** Only the third segment matters: the second is not checked and anything after the third is ignored. */
  lemma OnlyThirdSegmentMatters(first: string, second: string, rest: string)
    requires Text.Free(first, '/') && Text.Free(second, '/')
    requires rest == [] || rest[0] == '/'
    ensures TabFromPath("/" + first + "/" + second + rest) == TabFromPath(PathOf(second))
  {
    ThirdSegment(first, second, rest);
    SegmentOfPath(second);
  }

  /** A path of fewer than three segments, or with an empty third one, shows the overview. */
  lemma MissingSegmentShowsOverview(path: string)
    requires |Text.Split(path, '/')| <= 2 || Text.Split(path, '/')[2] == ""
    ensures TabFromPath(path) == "overview" && TabFromPathAsWritten(path) == "overview"
  {
  }

  /** A path of a single segment after the leading slash, such as `/dashboard`, shows the overview. */
  lemma BareDashboardShowsOverview(first: string)
    requires Text.Free(first, '/')
    ensures TabFromPath("/" + first) == "overview"
  {
    Text.SplitFree(first, '/');
    Text.SplitAfterHead("", first, '/');
    assert "/" + first == "" + ['/'] + first;
  }

  /** `/dashboard/` shows the overview. */
  lemma TrailingSlashShowsOverview()
    ensures TabFromPath("/dashboard/") == "overview"
  {
    SegmentOfPath("");
    assert PathOf("") == "/dashboard/";
  }
}

=== FILE: domain.dfy ===
/**
 * The records the application exchanges: users, ledger entries and the two admin review queues.
 * Money is an integer number of pence.
 */
module Domain {
  import opened Wrappers

  type UserId = string

  /** An amount of money in pence. */
  type Money = int

  datatype KycStatus = Unverified | Pending | Verified | Rejected

  datatype Role = UserRole | AdminRole

  datatype AccountStatus = Active | Frozen

  /** The per-account withdrawal switch (`'active' | 'paused'`). */
  datatype WithdrawalGate = GateActive | GatePaused

  /** The address and document a user submits for identity verification. */
  datatype KycData = KycData(address: string, city: string, postalCode: string, country: string, idDocumentUrl: string)

  datatype User = User(
    id: UserId,
    firstName: string,
    lastName: string,
    username: string,
    email: string,
    emailVerified: bool,
    referralCode: string,
    kycStatus: KycStatus,
    walletAddress: Option<string>,
    paypalEmail: Option<string>,
    payoutConnected: bool,
    hasPin: bool,
    is2faEnabled: bool,
    role: Role,
    status: AccountStatus,
    balance: Money,
    withdrawalStatus: Option<WithdrawalGate>,
    kycData: Option<KycData>,
    kycRejectionReason: Option<string>)

  /** The display name the API builds from a user record. */
  function FullName(u: User): string {
    u.firstName + " " + u.lastName
  }

  datatype TxType = Commission | Withdrawal | Bonus | Fee | Adjustment | Reversal

  datatype TxStatus = Completed | Pending | Failed

  /** The owner tag carried by entries of the global log. */
  datatype Party = Party(name: string, email: string)

  /** A ledger entry's description, by the template that produced it. */
  datatype Memo =
    | PendingWithdrawalTo(destination: string)
    | WithdrawalTo(destination: string)
    | DeniedByAdmin
    | RefundForDeniedWithdrawal
    | AdminAdjustment(from: Money, to: Money)
    | Note(text: string)

  datatype Transaction = Transaction(
    id: string,
    date: string,
    kind: TxType,
    memo: Memo,
    amount: Money,
    status: TxStatus,
    party: Option<Party>)

  datatype KycRequest = KycRequest(
    id: string,
    userId: UserId,
    userName: string,
    userEmail: string,
    dateSubmitted: string,
    address: string,
    city: string,
    postalCode: string,
    country: string,
    documentUrl: string)

  datatype PayoutMethod = CryptoPayout | StripePayout | PayPalPayout

  datatype WithdrawalRequest = WithdrawalRequest(
    id: string,
    userId: UserId,
    userName: string,
    userEmail: string,
    amount: Money,
    date: string,
    payoutMethod: PayoutMethod,
    destination: string)

  function Abs(x: int): nat {
    if x < 0 then -x else x
  }

  /** The sum of the amounts of a log's entries. */
  function Total(log: seq<Transaction>): Money {
    if log == [] then 0 else log[0].amount + Total(log[1..])
  }
}

=== FILE: kyc.dfy ===
/**
 * Identity verification in the mock backend: a user's submission (`mockSubmitKyc`), the admin's
 * approval or rejection (`mockProcessKyc`) and the payout connection (`mockConnectPayout`).
 */
module Kyc {
  import opened Wrappers
  import opened Domain
  import opened Store
  import Seqs

  /** The address fields of the verification form. */
  datatype KycForm = KycForm(address: string, city: string, postalCode: string, country: string)

  datatype KycDecision = ApproveKyc | RejectKyc

  const PayoutOnboardingUrl: string := "https://connect.stripe.com/express/onboarding"

  const DefaultRejectionReason: string :=
    "Your submission was rejected. Please review your documents and try again."

  /** The stored location of the document a user with id `id` uploads at clock reading `millis`. */
  function DocumentUrl(id: UserId, millis: string): string {
    "/mock-document/" + id + "-" + millis + ".pdf"
  }

  function SubmittedData(u: User, form: KycForm, millis: string): (d: KycData)
    ensures d.address == form.address && d.city == form.city && d.postalCode == form.postalCode
    ensures d.country == form.country && d.idDocumentUrl == DocumentUrl(u.id, millis)
  {
    KycData(form.address, form.city, form.postalCode, form.country, DocumentUrl(u.id, millis))
  }

  /** The review request a submission by `u` queues. */
  function RequestFor(u: User, data: KycData, date: string): (q: KycRequest)
    ensures q.id == u.id && q.userId == u.id && q.userEmail == u.email && q.userName == FullName(u)
    ensures q.documentUrl == data.idDocumentUrl && q.address == data.address && q.country == data.country
  {
    KycRequest(u.id, u.id, FullName(u), u.email, date, data.address, data.city, data.postalCode, data.country,
               data.idDocumentUrl)
  }

  /** The queue without the requests of user `id`. */
  function WithoutUser(queue: seq<KycRequest>, id: UserId): (r: seq<KycRequest>)
    ensures forall j | 0 <= j < |r| :: r[j].userId != id && r[j] in queue
    ensures forall j | 0 <= j < |queue| :: queue[j].userId != id ==> queue[j] in r
  {
    Seqs.Filter(queue, (q: KycRequest) => q.userId != id)
  }

  /** Dropping a user's requests keeps every other request as many times as it was queued. */
  lemma WithoutUserCounts(queue: seq<KycRequest>, id: UserId)
    ensures forall q :: multiset(WithoutUser(queue, id))[q] == if q.userId != id then multiset(queue)[q] else 0
  {
    Seqs.FilterCounts(queue, (q: KycRequest) => q.userId != id);
  }

  /**
   * `mockSubmitKyc`: the current user becomes pending with the submitted data and no rejection
   * reason; any earlier request of theirs leaves the queue and the new one goes to its head.
   */
  function SubmitKyc(st: Store, form: KycForm, millis: string, date: string): (r: Reply<string>)
    requires Valid(st)
    ensures Valid(r.after) && r.outcome.Ok?
    ensures var u := Current(st);
            Current(r.after) == u.(kycStatus := KycStatus.Pending, kycRejectionReason := None,
                                   kycData := Some(SubmittedData(u, form, millis)))
    ensures OnlyCurrentTouched(st, r.after.(kycQueue := st.kycQueue))
    ensures |r.after.kycQueue| >= 1
    ensures r.after.kycQueue[0] == RequestFor(Current(st), SubmittedData(Current(st), form, millis), date)
    ensures forall j | 1 <= j < |r.after.kycQueue| :: r.after.kycQueue[j].userId != Current(st).id
    ensures Seqs.IsSubsequence(r.after.kycQueue[1..], st.kycQueue)
    ensures forall j | 0 <= j < |st.kycQueue| :: st.kycQueue[j].userId != Current(st).id ==>
              st.kycQueue[j] in r.after.kycQueue[1..]
  {
    var u := Current(st);
    var data := SubmittedData(u, form, millis);
    var updated := WithCurrent(st, u.(kycStatus := KycStatus.Pending, kycRejectionReason := None, kycData := Some(data)));
    var rest := WithoutUser(st.kycQueue, u.id);
    Seqs.FilterIsSubsequence(st.kycQueue, (q: KycRequest) => q.userId != u.id);
    var queue := [RequestFor(u, data, date)] + rest;
    assert queue[1..] == rest;
    Reply(Ok("KYC documents submitted for review."), updated.(kycQueue := queue))
  }

  /** The position of the first queued request of user `userId`, or -1. */
  function FindKycRequest(queue: seq<KycRequest>, userId: UserId): int {
    Seqs.FirstIndex(queue, (q: KycRequest) => q.userId == userId)
  }

  /** The reason a rejection records: the one given, unless it is absent or empty. */
  function RejectionReason(reason: Option<string>): (s: string)
    ensures s != ""
    ensures reason.Some? && reason.value != "" ==> s == reason.value
    ensures reason.None? || reason.value == "" ==> s == DefaultRejectionReason
  {
    if reason.Some? && reason.value != "" then reason.value else DefaultRejectionReason
  }

  /** The record after the admin's decision; the submitted data is discarded either way. */
  function Decided(u: User, decision: KycDecision, reason: Option<string>): (v: User)
    ensures v == u.(kycStatus := v.kycStatus, kycRejectionReason := v.kycRejectionReason, kycData := None)
    ensures decision == ApproveKyc ==> v.kycStatus == Verified && v.kycRejectionReason == None
    ensures decision == RejectKyc ==> v.kycStatus == Rejected && v.kycRejectionReason == Some(RejectionReason(reason))
  {
    match decision
    case ApproveKyc => u.(kycStatus := Verified, kycRejectionReason := None, kycData := None)
    case RejectKyc => u.(kycStatus := Rejected, kycRejectionReason := Some(RejectionReason(reason)), kycData := None)
  }

  /**
   * `mockProcessKyc`: needs both a queued request and a stored record for the user. The record
   * takes the decision, the first request of the user leaves the queue, and the current-user
   * object mirrors the decision when it carries the same id: under a member session that object
   * is a stored record (already decided, or not the user's), so only a signed-in admin object
   * with that id changes.
   */
  function ProcessKyc(st: Store, userId: UserId, decision: KycDecision, reason: Option<string>): (r: Reply<string>)
    requires Valid(st)
    ensures Valid(r.after)
    ensures r.outcome.Ok? <==> FindKycRequest(st.kycQueue, userId) != -1 && userId in st.users
    ensures r.outcome.Err? ==> r == Reply(Err(KycRequestNotFound), st)
    ensures r.outcome.Ok? ==>
              && r.after.users == st.users[userId := Decided(st.users[userId], decision, reason)]
              && r.after.kycQueue == Seqs.RemoveAt(st.kycQueue, FindKycRequest(st.kycQueue, userId))
              && r.after.admin == (if st.session.Operator? && st.admin.id == userId then Decided(st.admin, decision, reason) else st.admin)
              && r.after == st.(users := r.after.users, kycQueue := r.after.kycQueue, admin := r.after.admin)
  {
    var i := FindKycRequest(st.kycQueue, userId);
    if i == -1 || userId !in st.users then Reply(Err(KycRequestNotFound), st)
    else
      var decided := PutRecord(st, Decided(st.users[userId], decision, reason));
      var admin := if st.session.Operator? && st.admin.id == userId then Decided(st.admin, decision, reason) else st.admin;
      var action := if decision == ApproveKyc then "approve" else "reject";
      Reply(Ok("KYC request has been " + ActionDone(action) + "."),
            decided.(kycQueue := Seqs.RemoveAt(st.kycQueue, i), admin := admin))
  }

  /** `mockConnectPayout`: marks the current user's payout as connected and returns the onboarding link. */
  function ConnectPayout(st: Store): (r: Reply<string>)
    requires Valid(st)
    ensures Valid(r.after) && r.outcome == Ok(PayoutOnboardingUrl)
    ensures Current(r.after) == Current(st).(payoutConnected := true)
    ensures OnlyCurrentTouched(st, r.after)
  {
    Reply(Ok(PayoutOnboardingUrl), WithCurrent(st, Current(st).(payoutConnected := true)))
  }

  // ---------------------------------------------------------------------------------------
  // Properties across calls.
  // ---------------------------------------------------------------------------------------

  /** No user has more than one request in the queue. */
  predicate OnePerUser(queue: seq<KycRequest>) {
    forall a, b | 0 <= a < b < |queue| :: queue[a].userId != queue[b].userId
  }

  /** Every element of a subsequence is an element of the sequence it was taken from. */
  lemma {:induction false} SubsequenceMembers(xs: seq<KycRequest>, ys: seq<KycRequest>)
    requires Seqs.IsSubsequence(xs, ys)
    ensures forall j | 0 <= j < |xs| :: xs[j] in ys
    decreases |ys|
  {
    if |xs| > 0 {
      if xs[0] == ys[0] {
        SubsequenceMembers(xs[1..], ys[1..]);
        forall j | 0 <= j < |xs|
          ensures xs[j] in ys
        {
          if j > 0 {
            assert xs[j] == xs[1..][j - 1];
          }
        }
      } else {
        SubsequenceMembers(xs, ys[1..]);
      }
    }
  }

  /** Dropping requests from a queue with one request per user keeps it so. */
  lemma {:induction false} OnePerUserSubsequence(xs: seq<KycRequest>, ys: seq<KycRequest>)
    requires Seqs.IsSubsequence(xs, ys) && OnePerUser(ys)
    ensures OnePerUser(xs)
    decreases |ys|
  {
    if |xs| > 0 {
      assert OnePerUser(ys[1..]) by {
        forall a, b | 0 <= a < b < |ys[1..]|
          ensures ys[1..][a].userId != ys[1..][b].userId
        {
          assert ys[1..][a] == ys[a + 1] && ys[1..][b] == ys[b + 1];
        }
      }
      if xs[0] == ys[0] {
        OnePerUserSubsequence(xs[1..], ys[1..]);
        SubsequenceMembers(xs[1..], ys[1..]);
        forall a, b | 0 <= a < b < |xs|
          ensures xs[a].userId != xs[b].userId
        {
          if a == 0 {
            assert xs[b] == xs[1..][b - 1];
            var k :| 0 <= k < |ys[1..]| && ys[1..][k] == xs[b];
            assert ys[k + 1] == xs[b];
          } else {
            assert xs[a] == xs[1..][a - 1] && xs[b] == xs[1..][b - 1];
          }
        }
      } else {
        OnePerUserSubsequence(xs, ys[1..]);
      }
    }
  }

  /** A submission keeps the queue at one request per user. */
  lemma SubmitKeepsOnePerUser(st: Store, form: KycForm, millis: string, date: string)
    requires Valid(st) && OnePerUser(st.kycQueue)
    ensures OnePerUser(SubmitKyc(st, form, millis, date).after.kycQueue)
  {
    var q := SubmitKyc(st, form, millis, date).after.kycQueue;
    OnePerUserSubsequence(q[1..], st.kycQueue);
    forall a, b | 0 <= a < b < |q|
      ensures q[a].userId != q[b].userId
    {
      if a > 0 {
        assert q[a] == q[1..][a - 1] && q[b] == q[1..][b - 1];
      }
    }
  }

  /**
   * A member's submission followed by its approval: the member is verified with no stored data
   * and no reason, and the queue is the old one without the member's requests.
   */
  lemma SubmitThenApprove(st: Store, uid: UserId, form: KycForm, millis: string, date: string)
    requires Valid(st) && st.session == Member(uid)
    ensures var sub := SubmitKyc(st, form, millis, date).after;
            var r := ProcessKyc(sub, uid, ApproveKyc, None);
            && r.outcome.Ok?
            && r.after.users[uid] == st.users[uid].(kycStatus := Verified, kycRejectionReason := None, kycData := None)
            && r.after.kycQueue == WithoutUser(st.kycQueue, uid)
  {
    var sub := SubmitKyc(st, form, millis, date).after;
    assert sub.kycQueue[0].userId == uid;
    assert FindKycRequest(sub.kycQueue, uid) == 0;
    assert sub.kycQueue == [sub.kycQueue[0]] + WithoutUser(st.kycQueue, uid);
  }
}

=== FILE: kyc_tab.dfy ===
/**
 * The dashboard's verification tab: which view a user sees, the submission guard, the submission
 * itself and the Stripe connection button.
 */
module KycTab {
  import opened Wrappers
  import opened Domain
  import opened Store
  import Kyc

  const NoReasonText: string := "No reason provided."
  const MissingPrerequisites: string := "Please upload a document and set up a payout method."

  /** The tab's views: a notice for pending or verified users, otherwise the form, with the rejection notice when rejected. */
  datatype KycView = PendingNotice | VerifiedNotice | SubmissionForm(rejectionNotice: Option<string>)

  /** The reason shown to a rejected user: the recorded one, or a stock text when it is absent or empty. */
  function ReasonShown(reason: Option<string>): (s: string)
    ensures s != ""
    ensures reason.Some? && reason.value != "" ==> s == reason.value
    ensures reason.None? || reason.value == "" ==> s == NoReasonText
  {
    if reason.Some? && reason.value != "" then reason.value else NoReasonText
  }

  function ViewFor(user: Option<User>): (v: KycView)
    ensures v == PendingNotice <==> user.Some? && user.value.kycStatus == KycStatus.Pending
    ensures v == VerifiedNotice <==> user.Some? && user.value.kycStatus == Verified
    ensures v.SubmissionForm? ==> (v.rejectionNotice.Some? <==> user.Some? && user.value.kycStatus == Rejected)
    ensures v.SubmissionForm? && v.rejectionNotice.Some? ==>
              v.rejectionNotice.value == ReasonShown(user.value.kycRejectionReason)
  {
    if user.Some? && user.value.kycStatus == KycStatus.Pending then PendingNotice
    else if user.Some? && user.value.kycStatus == Verified then VerifiedNotice
    else if user.Some? && user.value.kycStatus == Rejected then SubmissionForm(Some(ReasonShown(user.value.kycRejectionReason)))
    else SubmissionForm(None)
  }

  /** The form's state: the address fields, whether a document is chosen, and the two notices. */
  datatype FormState = FormState(fields: Kyc.KycForm, hasDocument: bool, message: string, error: string)

  /** The form as it opens: blank address fields with the country preset. */
  const InitialForm: FormState := FormState(Kyc.KycForm("", "", "", "United Kingdom"), false, "", "")

  /** The submission needs a chosen document and a connected payout; the button is disabled under the same condition. */
  predicate Blocked(hasDocument: bool, user: Option<User>) {
    !hasDocument || !(user.Some? && user.value.payoutConnected)
  }

  datatype Submitted = Submitted(after: Store, user: Option<User>, form: FormState)

  /**
   * Submitting the form: without a document or a connected payout it refuses on its own;
   * otherwise the backend records the submission and the local copy of the user turns pending.
   */
  function Submit(st: Store, user: Option<User>, form: FormState, millis: string, date: string): (s: Submitted)
    requires Valid(st)
    ensures Blocked(form.hasDocument, user) ==>
              s == Submitted(st, user, form.(error := MissingPrerequisites, message := ""))
    ensures !Blocked(form.hasDocument, user) ==>
              var r := Kyc.SubmitKyc(st, form.fields, millis, date);
              && s.after == r.after
              && s.form == form.(message := r.outcome.value, error := "")
              && s.user == Some(user.value.(kycStatus := KycStatus.Pending))
  {
    var cleared := form.(error := "", message := "");
    if Blocked(form.hasDocument, user) then Submitted(st, user, cleared.(error := MissingPrerequisites))
    else
      var r := Kyc.SubmitKyc(st, form.fields, millis, date);
      Submitted(r.after, Some(user.value.(kycStatus := KycStatus.Pending)), cleared.(message := r.outcome.value))
  }

  /** After a submission goes through, the tab shows the pending notice, and so does the backend's record. */
  lemma SubmissionShowsPending(st: Store, user: Option<User>, form: FormState, millis: string, date: string)
    requires Valid(st) && !Blocked(form.hasDocument, user)
    ensures var s := Submit(st, user, form, millis, date);
            ViewFor(s.user) == PendingNotice && Current(s.after).kycStatus == KycStatus.Pending
  {
  }

  datatype Connected = Connected(after: Store, user: Option<User>, form: FormState)

  /**
   * The Stripe button: the form's error notice is cleared first; then the backend returns the
   * onboarding link, and the local copy is marked connected only when that link is non-empty
   * (which it always is).
   */
  function ConnectStripe(st: Store, user: Option<User>, form: FormState): (r: Connected)
    requires Valid(st)
    ensures r.after == Kyc.ConnectPayout(st).after
    ensures r.user.Some? <==> user.Some?
    ensures user.Some? ==> r.user.value == user.value.(payoutConnected := true)
    ensures r.form == form.(error := "")
  {
    var cleared := form.(error := "");
    var reply := Kyc.ConnectPayout(st);
    var url := reply.outcome.value;
    Connected(reply.after, if url != "" && user.Some? then Some(user.value.(payoutConnected := true)) else user, cleared)
  }

  /** Once Stripe is connected, choosing a document is all the form still needs, and no error is shown. */
  lemma ConnectingLeavesOnlyDocument(st: Store, user: User, form: FormState)
    requires Valid(st)
    ensures var c := ConnectStripe(st, Some(user), form);
            && (Blocked(c.form.hasDocument, c.user) <==> !form.hasDocument)
            && c.form.error == ""
  {
  }

  /**
   * A submission refused for a missing payout shows the prerequisite notice; connecting Stripe
   * then clears it, and with a document already chosen the form can be submitted.
   */
  lemma ConnectClearsRefusal(st: Store, user: User, form: FormState, millis: string, date: string)
    requires Valid(st) && !user.payoutConnected
    ensures var s := Submit(st, Some(user), form, millis, date);
            var c := ConnectStripe(s.after, s.user, s.form);
            && s.form.error == MissingPrerequisites
            && c.form.error == ""
            && (form.hasDocument ==> !Blocked(c.form.hasDocument, c.user))
  {
  }
}

=== FILE: ledger.dfy ===
/**
 * The withdrawal ledger of the mock backend: a user's withdrawal request (`mockWithdraw`), the
 * admin's approval or denial of a queued request (`mockProcessWithdrawal`) and the admin's
 * direct balance adjustment (`mockAdminUpdateUser`).
 */
module Ledger {
  import opened Wrappers
  import opened Domain
  import opened Store
  import Seqs

  /** The request's `type`: `'Crypto'`, or anything else, which the API treats as fiat. */
  datatype WithdrawalKind = Crypto | Fiat

  datatype WithdrawalInput = WithdrawalInput(
    kind: WithdrawalKind,
    amount: Money,
    pin: string,
    twoFactorToken: Option<string>,
    network: Option<string>,
    address: Option<string>)

  /** The clock readings an operation takes: `Date.now()` for fresh ids, and today's date. */
  datatype Stamp = Stamp(millis: string, date: string)

  /** A JavaScript-truthy optional string: present and non-empty. */
  predicate Filled(o: Option<string>) {
    o.Some? && o.value != ""
  }

  predicate TokenValid(token: Option<string>) {
    token.Some? && CodeValid(token.value)
  }

  /** All four guards of a withdrawal pass for the current user `u`. */
  predicate Admissible(u: User, input: WithdrawalInput) {
    && CodeValid(input.pin)
    && (u.is2faEnabled ==> TokenValid(input.twoFactorToken))
    && (input.kind == Crypto ==> Filled(input.network) && Filled(input.address))
    && input.amount <= u.balance
  }

  /** A pending withdrawal entry for `amount`. */
  predicate IsPendingDebit(t: Transaction, amount: Money) {
    t.kind == Withdrawal && t.status == TxStatus.Pending && t.amount == -amount
  }

  function PartyOf(u: User): Party {
    Party(FullName(u), u.email)
  }

  const WithdrawalInitiated: string := "Withdrawal initiated successfully. Your balance has been updated."

  /** The pending entry a withdrawal writes to the session log. */
  function PendingEntryOf(input: WithdrawalInput, stamp: Stamp): (t: Transaction)
    ensures IsPendingDebit(t, input.amount) && t.party == None
  {
    var memo := PendingWithdrawalTo(if input.kind == Crypto then input.address.GetOr("") else "Fiat Account");
    Transaction("txn_" + stamp.millis, stamp.date, Withdrawal, memo, -input.amount, TxStatus.Pending, None)
  }

  /** The request a withdrawal by `u` puts in the admin queue. */
  function RequestOf(u: User, input: WithdrawalInput, stamp: Stamp): (w: WithdrawalRequest)
    ensures w.id == "wd_" + stamp.millis && w.userId == u.id && w.userEmail == u.email && w.amount == input.amount
  {
    WithdrawalRequest(
      "wd_" + stamp.millis, u.id, FullName(u), u.email, input.amount, stamp.date,
      if input.kind == Crypto then CryptoPayout else StripePayout,
      if Filled(input.address) then input.address.value else "Stripe Connect Account")
  }

  /**
   * `b` with the parts a withdrawal books (both logs, the withdrawal queue and its counter) put
   * back as they are in `a`; what is left to compare is everything a withdrawal must not touch.
   */
  function Booked(b: Store, a: Store): Store {
    b.(userLog := a.userLog, globalLog := a.globalLog, withdrawals := a.withdrawals,
       pendingWithdrawalsCount := a.pendingWithdrawalsCount)
  }

  /** The effects of an admitted withdrawal: debit, log entries and the queued request. */
  function Debit(st: Store, input: WithdrawalInput, stamp: Stamp): (st': Store)
    requires Valid(st) && Admissible(Current(st), input)
    ensures Valid(st')
    ensures Current(st') == Current(st).(balance := Current(st).balance - input.amount)
    ensures OnlyCurrentTouched(st, Booked(st', st))
    ensures st'.userLog == [PendingEntryOf(input, stamp)] + st.userLog
    ensures st'.globalLog == [PendingEntryOf(input, stamp).(party := Some(PartyOf(Current(st))))] + st.globalLog
    ensures st'.withdrawals == [RequestOf(Current(st), input, stamp)] + st.withdrawals
    ensures st'.userLog[1..] == st.userLog && st'.globalLog[1..] == st.globalLog && st'.withdrawals[1..] == st.withdrawals
    ensures st'.pendingWithdrawalsCount == |st'.withdrawals|
  {
    var u := Current(st);
    var debited := WithCurrent(st, u.(balance := u.balance - input.amount));
    var queue := [RequestOf(u, input, stamp)] + st.withdrawals;
    var st' := debited.(
      userLog := [PendingEntryOf(input, stamp)] + st.userLog,
      globalLog := [PendingEntryOf(input, stamp).(party := Some(PartyOf(u)))] + st.globalLog,
      withdrawals := queue,
      pendingWithdrawalsCount := |queue|);
    assert st'.userLog[1..] == st.userLog && st'.globalLog[1..] == st.globalLog && st'.withdrawals[1..] == st.withdrawals;
    st'
  }

  /**
   * The first of `mockWithdraw`'s four guards that refuses `input` for the current user `u`, in the
   * order PIN, 2FA token, crypto destination, balance; `None` when all pass.
   */
  function Refusal(u: User, input: WithdrawalInput): (e: Option<ApiError>)
    ensures e.None? <==> Admissible(u, input)
    ensures !CodeValid(input.pin) ==> e == Some(InvalidPin)
    ensures (CodeValid(input.pin) && u.is2faEnabled && !TokenValid(input.twoFactorToken))
              ==> e == Some(InvalidTwoFactorToken)
    ensures (&& CodeValid(input.pin)
             && (u.is2faEnabled ==> TokenValid(input.twoFactorToken))
             && input.kind == Crypto && !(Filled(input.network) && Filled(input.address)))
              ==> e == Some(MissingCryptoDestination)
    ensures (&& CodeValid(input.pin)
             && (u.is2faEnabled ==> TokenValid(input.twoFactorToken))
             && (input.kind == Crypto ==> Filled(input.network) && Filled(input.address))
             && input.amount > u.balance)
              ==> e == Some(InsufficientBalance)
  {
    if !CodeValid(input.pin) then Some(InvalidPin)
    else if u.is2faEnabled && !TokenValid(input.twoFactorToken) then Some(InvalidTwoFactorToken)
    else if input.kind == Crypto && (!Filled(input.network) || !Filled(input.address)) then Some(MissingCryptoDestination)
    else if input.amount > u.balance then Some(InsufficientBalance)
    else None
  }

  /**
   * `mockWithdraw`: refused by the first failing guard, with nothing changed; otherwise an
   * immediate debit of the current user, one pending entry at the head of both logs and one
   * request at the head of the admin queue.
   */
  function Withdraw(st: Store, input: WithdrawalInput, stamp: Stamp): (r: Reply<string>)
    requires Valid(st)
    ensures Valid(r.after)
    ensures r.outcome.Ok? <==> Admissible(Current(st), input)
    ensures r.outcome.Err? ==> r == Reply(Err(Refusal(Current(st), input).value), st)
    ensures r.outcome.Ok? ==>
              var u := Current(st);
              && Current(r.after) == u.(balance := u.balance - input.amount)
              && Current(r.after).balance >= 0
              && OnlyCurrentTouched(st, Booked(r.after, st))
    ensures r.outcome.Ok? ==>
              && |r.after.userLog| == |st.userLog| + 1
              && r.after.userLog[1..] == st.userLog
              && IsPendingDebit(r.after.userLog[0], input.amount)
              && r.after.userLog[0].party == None
              && |r.after.globalLog| == |st.globalLog| + 1
              && r.after.globalLog[1..] == st.globalLog
              && r.after.globalLog[0] == r.after.userLog[0].(party := Some(PartyOf(Current(st))))
    ensures r.outcome.Ok? ==>
              && |r.after.withdrawals| == |st.withdrawals| + 1
              && r.after.withdrawals[1..] == st.withdrawals
              && r.after.withdrawals[0].id == "wd_" + stamp.millis
              && r.after.withdrawals[0].userId == Current(st).id
              && r.after.withdrawals[0].userEmail == Current(st).email
              && r.after.withdrawals[0].amount == input.amount
              && r.after.pendingWithdrawalsCount == |r.after.withdrawals|
  {
    match Refusal(Current(st), input)
    case Some(e) => Reply(Err(e), st)
    case None => Reply(Ok(WithdrawalInitiated), Debit(st, input, stamp))
  }

  // ---------------------------------------------------------------------------------------
  // Resolving a queued request.
  // ---------------------------------------------------------------------------------------

  datatype Decision = Approve | Deny

  /** The global-log entry a request settles: a pending withdrawal by the same email for the same amount. */
  function MatchesGlobal(w: WithdrawalRequest): Transaction -> bool {
    (t: Transaction) =>
      t.kind == Withdrawal && t.status == TxStatus.Pending && t.party.Some? && t.party.value.email == w.userEmail
      && Abs(t.amount) == w.amount
  }

  /** The session-log entry a request settles: a pending withdrawal for the same amount. */
  function MatchesSession(w: WithdrawalRequest): Transaction -> bool {
    (t: Transaction) => t.kind == Withdrawal && t.status == TxStatus.Pending && Abs(t.amount) == w.amount
  }

  /** `after` is `before` with only its first entry satisfying `p` (if any) re-labelled. */
  ghost predicate MarkedFirst(before: seq<Transaction>, after: seq<Transaction>, p: Transaction -> bool,
                              status: TxStatus, memo: Memo) {
    var k := Seqs.FirstIndex(before, p);
    && |after| == |before|
    && (forall j | 0 <= j < |before| && j != k :: after[j] == before[j])
    && (0 <= k ==> after[k] == before[k].(status := status, memo := memo))
  }

  function MarkFirst(log: seq<Transaction>, p: Transaction -> bool, status: TxStatus, memo: Memo): (r: seq<Transaction>)
    ensures MarkedFirst(log, r, p, status, memo)
  {
    var k := Seqs.FirstIndex(log, p);
    if k == -1 then log else log[k := log[k].(status := status, memo := memo)]
  }

  /** The position of the queued request with id `id`, or -1. */
  function FindRequest(queue: seq<WithdrawalRequest>, id: string): int {
    Seqs.FirstIndex(queue, (w: WithdrawalRequest) => w.id == id)
  }

  /** The refund entry written when a request is denied. */
  function ReversalOf(w: WithdrawalRequest, stamp: Stamp): Transaction {
    Transaction("rev_" + stamp.millis, stamp.date, Reversal, RefundForDeniedWithdrawal, w.amount, Completed,
                Some(Party(w.userName, w.userEmail)))
  }

  /** Re-labels the entry the request settles in the global log, and in the session log when the requester is current. */
  function Mark(st: Store, w: WithdrawalRequest, current: bool, status: TxStatus, memo: Memo): (st': Store)
    ensures st' == st.(globalLog := st'.globalLog, userLog := st'.userLog)
    ensures MarkedFirst(st.globalLog, st'.globalLog, MatchesGlobal(w), status, memo)
    ensures current ==> MarkedFirst(st.userLog, st'.userLog, MatchesSession(w), status, memo)
    ensures !current ==> st'.userLog == st.userLog
  {
    st.(globalLog := MarkFirst(st.globalLog, MatchesGlobal(w), status, memo),
        userLog := if current then MarkFirst(st.userLog, MatchesSession(w), status, memo) else st.userLog)
  }

  /** `after` is `before` with the record `uid` credited by `amount`, and nothing else changed. */
  predicate Credited(before: map<UserId, User>, after: map<UserId, User>, uid: UserId, amount: Money)
    requires uid in before
  {
    after == before[uid := before[uid].(balance := before[uid].balance + amount)]
  }

  /**
   * The refund of a denied request: the stored requester is credited, and so is the current-user
   * object if it carries the requester's id. `creditShared` says whether that second credit is
   * applied even when the two are one object (as the API does), or only when they are distinct.
   */
  function Refund(st: Store, w: WithdrawalRequest, creditShared: bool): (st': Store)
    requires Valid(st) && w.userId in st.users
    ensures Valid(st')
    ensures st' == st.(users := st'.users, admin := st'.admin)
    ensures Credited(st.users, st'.users, w.userId, if Aliases(st, w.userId) && creditShared then 2 * w.amount else w.amount)
    ensures st'.admin == (if st.session.Operator? && st.admin.id == w.userId
                          then st.admin.(balance := st.admin.balance + w.amount) else st.admin)
  {
    // The stored record is credited (services/api.ts:576); the current-user object is credited again when
    // it carries the requester's id (services/api.ts:578). A member session's current-user object is the
    // stored record itself, so there the second credit lands on the same record.
    var stored := st.users[w.userId];
    var once := stored.(balance := stored.balance + w.amount);
    var twice := once.(balance := once.balance + w.amount);
    match st.session
    case Member(id) =>
      PutRecord(st, if id == w.userId && creditShared then twice else once)
    case Operator =>
      var admin := if st.admin.id == w.userId then st.admin.(balance := st.admin.balance + w.amount) else st.admin;
      PutRecord(st, once).(admin := admin)
  }

  /** The denial path: refund, mark the settled entry failed, prepend the reversal. */
  function Denied(st: Store, w: WithdrawalRequest, stamp: Stamp, creditShared: bool): (st': Store)
    requires Valid(st) && w.userId in st.users
    ensures Valid(st')
    ensures var refunded := Refund(st, w, creditShared);
            st' == refunded.(globalLog := st'.globalLog, userLog := st'.userLog)
    ensures |st'.globalLog| == |st.globalLog| + 1
    ensures st'.globalLog[0] == ReversalOf(w, stamp)
    ensures MarkedFirst(st.globalLog, st'.globalLog[1..], MatchesGlobal(w), Failed, DeniedByAdmin)
    ensures IsCurrent(st, w.userId) ==>
              && |st'.userLog| == |st.userLog| + 1
              && st'.userLog[0] == ReversalOf(w, stamp).(party := None)
              && MarkedFirst(st.userLog, st'.userLog[1..], MatchesSession(w), Failed, DeniedByAdmin)
    ensures !IsCurrent(st, w.userId) ==> st'.userLog == st.userLog
  {
    var current := IsCurrent(st, w.userId);
    var marked := Mark(Refund(st, w, creditShared), w, current, Failed, DeniedByAdmin);
    var reversal := ReversalOf(w, stamp);
    var st' := marked.(globalLog := [reversal] + marked.globalLog,
                       userLog := if current then [reversal.(party := None)] + marked.userLog else marked.userLog);
    assert st'.globalLog[1..] == marked.globalLog;
    assert current ==> st'.userLog[1..] == marked.userLog;
    st'
  }

  /** The request with id `withdrawalId` is queued and its requester is stored. */
  predicate Resolvable(st: Store, withdrawalId: string) {
    var i := FindRequest(st.withdrawals, withdrawalId);
    0 <= i && st.withdrawals[i].userId in st.users
  }

  /** The queued request with id `withdrawalId`. */
  function RequestWithId(st: Store, withdrawalId: string): (w: WithdrawalRequest)
    requires Resolvable(st, withdrawalId)
    ensures w in st.withdrawals && w.id == withdrawalId && w.userId in st.users
  {
    st.withdrawals[FindRequest(st.withdrawals, withdrawalId)]
  }

  /**
   * The global log after resolving `w`: an approval re-labels the entry it settles as completed; a
   * denial re-labels it as failed and puts the refund's reversal at the head of the log.
   */
  ghost predicate LogsSettled(st: Store, st': Store, w: WithdrawalRequest, decision: Decision, stamp: Stamp) {
    && (decision == Approve ==>
          MarkedFirst(st.globalLog, st'.globalLog, MatchesGlobal(w), Completed, WithdrawalTo(w.destination)))
    && (decision == Deny ==>
          && |st'.globalLog| == |st.globalLog| + 1
          && st'.globalLog[0] == ReversalOf(w, stamp)
          && MarkedFirst(st.globalLog, st'.globalLog[1..], MatchesGlobal(w), Failed, DeniedByAdmin))
  }

  /**
   * The settlement shared by the as-written and the corrected resolution of a queued request;
   * `creditShared` is passed on to `Refund`.
   */
  function Settle(st: Store, withdrawalId: string, decision: Decision, stamp: Stamp, creditShared: bool): (r: Reply<string>)
    requires Valid(st)
    ensures Valid(r.after) && r.after.session == st.session
    ensures r.outcome.Ok? <==> Resolvable(st, withdrawalId)
    ensures (r.outcome.Err? || decision == Approve) ==> r.after.users == st.users && r.after.admin == st.admin
    ensures (Resolvable(st, withdrawalId) && decision == Deny) ==>
              var refunded := Refund(st, RequestWithId(st, withdrawalId), creditShared);
              r.after.users == refunded.users && r.after.admin == refunded.admin
    ensures Resolvable(st, withdrawalId) ==> LogsSettled(st, r.after, RequestWithId(st, withdrawalId), decision, stamp)
    ensures FindRequest(st.withdrawals, withdrawalId) == -1 ==> r == Reply(Err(WithdrawalNotFound), st)
    ensures var i := FindRequest(st.withdrawals, withdrawalId);
            0 <= i ==>
              && r.after.withdrawals == Seqs.RemoveAt(st.withdrawals, i)
              && (st.withdrawals[i].userId !in st.users ==>
                    r == Reply(Err(RequesterNotFound), st.(withdrawals := r.after.withdrawals)))
    ensures var i := FindRequest(st.withdrawals, withdrawalId);
            0 <= i && st.withdrawals[i].userId in st.users ==>
              var w := st.withdrawals[i];
              && r.outcome.Ok?
              && r.after.pendingWithdrawalsCount == |r.after.withdrawals|
              && (decision == Approve ==>
                    r.after == Mark(st, w, IsCurrent(st, w.userId), Completed, WithdrawalTo(w.destination))
                                 .(withdrawals := r.after.withdrawals, pendingWithdrawalsCount := |r.after.withdrawals|))
              && (decision == Deny ==>
                    r.after == Denied(st, w, stamp, creditShared)
                                 .(withdrawals := r.after.withdrawals, pendingWithdrawalsCount := |r.after.withdrawals|))
  {
    var i := FindRequest(st.withdrawals, withdrawalId);
    if i == -1 then Reply(Err(WithdrawalNotFound), st)
    else
      var w := st.withdrawals[i];
      var remaining := Seqs.RemoveAt(st.withdrawals, i);
      if w.userId !in st.users then Reply(Err(RequesterNotFound), st.(withdrawals := remaining))
      else
        var settled :=
          if decision == Approve then Mark(st, w, IsCurrent(st, w.userId), Completed, WithdrawalTo(w.destination))
          else Denied(st, w, stamp, creditShared);
        var action := if decision == Approve then "approve" else "deny";
        Reply(Ok("Withdrawal has been " + ActionDone(action) + "."),
              settled.(withdrawals := remaining, pendingWithdrawalsCount := |remaining|))
  }

  /**
   * An administrator approves or denies a queued withdrawal, as the API does it. A denial credits
   * the stored requester and then the current-user object; when the current user is the
   * requester's own stored record, that record is credited twice.
   */
  function ProcessWithdrawal(st: Store, withdrawalId: string, decision: Decision, stamp: Stamp): (r: Reply<string>)
    requires Valid(st)
    ensures Valid(r.after)
    ensures r.outcome.Ok? <==> Resolvable(st, withdrawalId)
    ensures FindRequest(st.withdrawals, withdrawalId) == -1 ==> r == Reply(Err(WithdrawalNotFound), st)
    ensures (r.outcome.Err? || decision == Approve) ==> r.after.users == st.users && r.after.admin == st.admin
    ensures (Resolvable(st, withdrawalId) && decision == Deny) ==>
              var w := RequestWithId(st, withdrawalId);
              Credited(st.users, r.after.users, w.userId, if Aliases(st, w.userId) then 2 * w.amount else w.amount)
  {
    Settle(st, withdrawalId, decision, stamp, true)
  }

  /**
   * The resolution with the refund applied once: the requester's stored record and, when it is
   * a distinct object carrying the same id, the current-user object each gain the amount exactly once.
   */
  function ProcessWithdrawalCorrected(st: Store, withdrawalId: string, decision: Decision, stamp: Stamp): (r: Reply<string>)
    requires Valid(st)
    ensures Valid(r.after)
    ensures r.outcome.Ok? <==> Resolvable(st, withdrawalId)
    ensures FindRequest(st.withdrawals, withdrawalId) == -1 ==> r == Reply(Err(WithdrawalNotFound), st)
    ensures (r.outcome.Err? || decision == Approve) ==> r.after.users == st.users && r.after.admin == st.admin
    ensures (Resolvable(st, withdrawalId) && decision == Deny) ==>
              var w := RequestWithId(st, withdrawalId);
              && Credited(st.users, r.after.users, w.userId, w.amount)
              && (IsCurrent(st, w.userId) ==> Current(r.after).balance == Current(st).balance + w.amount)
  {
    Settle(st, withdrawalId, decision, stamp, false)
  }

  /**
   * What both resolutions do to the queue and the global log: a found request leaves the queue
   * even when its requester is missing, which changes nothing else; a resolved one also settles
   * its log entry and refreshes the pending counter.
   */
  lemma ResolutionEffects(st: Store, withdrawalId: string, decision: Decision, stamp: Stamp, corrected: bool)
    requires Valid(st)
    ensures var r := if corrected then ProcessWithdrawalCorrected(st, withdrawalId, decision, stamp)
                     else ProcessWithdrawal(st, withdrawalId, decision, stamp);
            var i := FindRequest(st.withdrawals, withdrawalId);
            && (0 <= i ==> r.after.withdrawals == Seqs.RemoveAt(st.withdrawals, i))
            && (0 <= i && st.withdrawals[i].userId !in st.users ==>
                  r == Reply(Err(RequesterNotFound), st.(withdrawals := r.after.withdrawals)))
            && (Resolvable(st, withdrawalId) ==>
                  && r.after.pendingWithdrawalsCount == |r.after.withdrawals|
                  && LogsSettled(st, r.after, RequestWithId(st, withdrawalId), decision, stamp))
  {
  }

  // ---------------------------------------------------------------------------------------
  // Direct edits by an administrator.
  // ---------------------------------------------------------------------------------------

  /** The fields the admin's edit form may supply; an absent field is left as it is. */
  datatype AdminPatch = AdminPatch(
    balance: Option<Money>,
    status: Option<AccountStatus>,
    withdrawalStatus: Option<WithdrawalGate>)

  /** The record `u` with the supplied fields of `patch` written over it. */
  function Patched(u: User, patch: AdminPatch): User {
    u.(balance := patch.balance.GetOr(u.balance),
       status := patch.status.GetOr(u.status),
       withdrawalStatus := if patch.withdrawalStatus.Some? then patch.withdrawalStatus else u.withdrawalStatus)
  }

  /** The global-log entry recording a balance change from `from` to `to` on the record `u`. */
  function AdjustmentOf(u: User, from: Money, to: Money, stamp: Stamp): Transaction {
    Transaction("txn_adj_" + stamp.millis, stamp.date, Adjustment, AdminAdjustment(from, to), to - from, Completed,
                Some(Party(FullName(u), u.email)))
  }

  /**
   * An administrator edits a user's balance, account status and withdrawal gate. A supplied
   * balance that differs from the stored one is recorded as an adjustment at the head of the
   * global log; the edited record is returned.
   */
  function AdminUpdateUser(st: Store, userId: UserId, patch: AdminPatch, stamp: Stamp): (r: Reply<User>)
    requires Valid(st)
    ensures Valid(r.after)
    ensures userId !in st.users ==> r == Reply(Err(UserNotFound), st)
    ensures r.after.users.Keys == st.users.Keys
    ensures userId in st.users ==>
              var before := st.users[userId];
              var after := r.after.users[userId];
              && r.outcome == Ok(after)
              && r.after == st.(users := r.after.users, globalLog := r.after.globalLog)
              && r.after.users == st.users[userId := after]
              && after == before.(balance := after.balance, status := after.status,
                                  withdrawalStatus := after.withdrawalStatus)
              && (patch.balance.Some? ==> after.balance == patch.balance.value)
              && (patch.balance.None? ==> after.balance == before.balance)
              && (patch.status.Some? ==> after.status == patch.status.value)
              && (patch.status.None? ==> after.status == before.status)
              && (patch.withdrawalStatus.Some? ==> after.withdrawalStatus == patch.withdrawalStatus)
              && (patch.withdrawalStatus.None? ==> after.withdrawalStatus == before.withdrawalStatus)
              && (after.balance == before.balance ==> r.after.globalLog == st.globalLog)
              && (after.balance != before.balance ==>
                    && |r.after.globalLog| == |st.globalLog| + 1
                    && r.after.globalLog[1..] == st.globalLog
                    && r.after.globalLog[0].kind == Adjustment
                    && r.after.globalLog[0].status == Completed
                    && r.after.globalLog[0].amount == after.balance - before.balance)
  {
    if userId !in st.users then Reply(Err(UserNotFound), st)
    else
      var before := st.users[userId];
      var after := Patched(before, patch);
      var log := if after.balance != before.balance
                 then [AdjustmentOf(before, before.balance, after.balance, stamp)] + st.globalLog
                 else st.globalLog;
      assert after.balance != before.balance ==> log[1..] == st.globalLog;
      var st' := PutRecord(st, after).(globalLog := log);
      Reply(Ok(after), st')
  }
}

=== FILE: ledger_properties.dfy ===
/**
 * Properties of the withdrawal ledger across calls: the global log accounts for every balance
 * change, a queued request resolves at most once, and a withdrawal followed by its approval or
 * denial leaves the balance one expects — except for the denial's double refund of a requester
 * who is the signed-in member.
 */
module LedgerProperties {
  import opened Wrappers
  import opened Domain
  import opened Store
  import opened Ledger
  import Accounts
  import Seqs

  // ---------------------------------------------------------------------------------------
  // Log totals.
  // ---------------------------------------------------------------------------------------

  /** Two logs whose entries carry the same amounts position by position have the same total. */
  lemma {:induction false} TotalByAmounts(a: seq<Transaction>, b: seq<Transaction>)
    requires |a| == |b|
    requires forall j | 0 <= j < |a| :: a[j].amount == b[j].amount
    ensures Total(a) == Total(b)
    decreases |a|
  {
    if a != [] {
      TotalByAmounts(a[1..], b[1..]);
    }
  }

  /** Re-labelling an entry's status and description leaves the log's total unchanged. */
  lemma MarkingKeepsTotal(before: seq<Transaction>, after: seq<Transaction>, p: Transaction -> bool,
                          status: TxStatus, memo: Memo)
    requires MarkedFirst(before, after, p, status, memo)
    ensures Total(after) == Total(before)
  {
    TotalByAmounts(before, after);
  }

  /** The balance change of the record `uid` between two stores. */
  function Gain(st: Store, st': Store, uid: UserId): Money
    requires uid in st.users && uid in st'.users
  {
    st'.users[uid].balance - st.users[uid].balance
  }

  /** The change of the global log's total between two stores. */
  function Logged(st: Store, st': Store): Money {
    Total(st'.globalLog) - Total(st.globalLog)
  }

  /** An admitted withdrawal logs exactly the amount it debits from the current user. */
  lemma WithdrawIsLogged(st: Store, input: WithdrawalInput, stamp: Stamp)
    requires Valid(st)
    ensures var r := Withdraw(st, input, stamp);
            r.outcome.Ok? ==> Logged(st, r.after) == Current(r.after).balance - Current(st).balance
  {
    var r := Withdraw(st, input, stamp);
    if r.outcome.Ok? {
      assert Total(r.after.globalLog) == r.after.globalLog[0].amount + Total(st.globalLog);
    }
  }

  /** An admin edit logs exactly the balance change it makes. */
  lemma AdminUpdateIsLogged(st: Store, userId: UserId, patch: AdminPatch, stamp: Stamp)
    requires Valid(st) && userId in st.users
    ensures var r := AdminUpdateUser(st, userId, patch, stamp);
            Logged(st, r.after) == Gain(st, r.after, userId)
  {
    var r := AdminUpdateUser(st, userId, patch, stamp);
    if r.after.users[userId].balance != st.users[userId].balance {
      assert Total(r.after.globalLog) == r.after.globalLog[0].amount + Total(st.globalLog);
    }
  }

  /** An approval changes no balance and no log total. */
  lemma ApprovalIsNeutral(st: Store, withdrawalId: string, stamp: Stamp)
    requires Valid(st)
    ensures var r := ProcessWithdrawal(st, withdrawalId, Approve, stamp);
            r.after.users == st.users && r.after.admin == st.admin && Logged(st, r.after) == 0
  {
    var r := ProcessWithdrawal(st, withdrawalId, Approve, stamp);
    if Resolvable(st, withdrawalId) {
      var w := RequestWithId(st, withdrawalId);
      var marked := Mark(st, w, IsCurrent(st, w.userId), Completed, WithdrawalTo(w.destination));
      assert r.after.globalLog == marked.globalLog;
      MarkingKeepsTotal(st.globalLog, marked.globalLog, MatchesGlobal(w), Completed, WithdrawalTo(w.destination));
    }
  }

  /** The denial's log entries: the reversal, ahead of the old log with one entry re-labelled. */
  lemma DenialLogsRefund(st: Store, w: WithdrawalRequest, stamp: Stamp, creditShared: bool)
    requires Valid(st) && w.userId in st.users
    ensures Logged(st, Denied(st, w, stamp, creditShared)) == w.amount
  {
    var d := Denied(st, w, stamp, creditShared);
    MarkingKeepsTotal(st.globalLog, d.globalLog[1..], MatchesGlobal(w), Failed, DeniedByAdmin);
    assert Total(d.globalLog) == d.globalLog[0].amount + Total(d.globalLog[1..]);
  }

  /** The corrected denial logs exactly the refund it credits to the requester's record. */
  lemma CorrectedDenialIsLogged(st: Store, withdrawalId: string, stamp: Stamp)
    requires Valid(st) && Resolvable(st, withdrawalId)
    ensures var r := ProcessWithdrawalCorrected(st, withdrawalId, Deny, stamp);
            var w := RequestWithId(st, withdrawalId);
            Logged(st, r.after) == Gain(st, r.after, w.userId) == w.amount
  {
    var w := RequestWithId(st, withdrawalId);
    var r := ProcessWithdrawalCorrected(st, withdrawalId, Deny, stamp);
    assert r.after.globalLog == Denied(st, w, stamp, false).globalLog;
    DenialLogsRefund(st, w, stamp, false);
  }

  /**
   * The denial as written: when the requester is the signed-in member, the record gains twice
   * what the log records, so the books no longer balance for any non-zero amount.
   */
  lemma DenialDoubleCredits(st: Store, withdrawalId: string, stamp: Stamp)
    requires Valid(st) && Resolvable(st, withdrawalId)
    requires Aliases(st, RequestWithId(st, withdrawalId).userId)
    ensures var r := ProcessWithdrawal(st, withdrawalId, Deny, stamp);
            var w := RequestWithId(st, withdrawalId);
            && Gain(st, r.after, w.userId) == 2 * w.amount
            && Logged(st, r.after) == w.amount
  {
    var w := RequestWithId(st, withdrawalId);
    var r := ProcessWithdrawal(st, withdrawalId, Deny, stamp);
    assert r.after.globalLog == Denied(st, w, stamp, true).globalLog;
    DenialLogsRefund(st, w, stamp, true);
  }

  // ---------------------------------------------------------------------------------------
  // A withdrawal followed by its resolution.
  // ---------------------------------------------------------------------------------------

  /** The request a member's withdrawal queues is the one its id resolves to afterwards. */
  lemma QueuedRequestResolves(st: Store, input: WithdrawalInput, stamp: Stamp)
    requires Valid(st) && st.session.Member? && Admissible(Current(st), input)
    ensures var after := Withdraw(st, input, stamp).after;
            && Resolvable(after, "wd_" + stamp.millis)
            && RequestWithId(after, "wd_" + stamp.millis) == after.withdrawals[0]
  {
    var after := Withdraw(st, input, stamp).after;
    var id := "wd_" + stamp.millis;
    var k := FindRequest(after.withdrawals, id);
    assert after.withdrawals[0].id == id;
    assert k == 0;
  }

  /** What a member's accepted withdrawal leaves for the administrator to resolve. */
  lemma MemberWithdrawal(st: Store, uid: UserId, input: WithdrawalInput, stamp: Stamp)
    requires Valid(st) && st.session == Member(uid) && Admissible(Current(st), input)
    ensures var w := Withdraw(st, input, stamp).after;
            var id := "wd_" + stamp.millis;
            && Valid(w) && w.session == Member(uid) && w.admin == st.admin && uid in w.users
            && Resolvable(w, id)
            && RequestWithId(w, id).userId == uid && RequestWithId(w, id).amount == input.amount
            && w.users[uid].balance == st.users[uid].balance - input.amount
  {
    QueuedRequestResolves(st, input, stamp);
  }

  /** The member who withdrew, and whose request is then approved, keeps the debited balance. */
  lemma WithdrawThenApprove(st: Store, uid: UserId, input: WithdrawalInput, s1: Stamp, s2: Stamp)
    requires Valid(st) && st.session == Member(uid) && Admissible(Current(st), input)
    ensures var w := Withdraw(st, input, s1).after;
            var p := ProcessWithdrawal(w, "wd_" + s1.millis, Approve, s2);
            p.outcome.Ok? && p.after.users[uid].balance == st.users[uid].balance - input.amount
  {
    MemberWithdrawal(st, uid, input, s1);
  }

  /**
   * The member who withdrew, still signed in, has the request denied: as written the record ends
   * up `amount` above where it started.
   */
  lemma WithdrawThenDenyAsWritten(st: Store, uid: UserId, input: WithdrawalInput, s1: Stamp, s2: Stamp)
    requires Valid(st) && st.session == Member(uid) && Admissible(Current(st), input)
    ensures var w := Withdraw(st, input, s1).after;
            var d := ProcessWithdrawal(w, "wd_" + s1.millis, Deny, s2);
            d.outcome.Ok? && d.after.users[uid].balance == st.users[uid].balance + input.amount
  {
    MemberWithdrawal(st, uid, input, s1);
  }

  /** With the corrected denial the member's record returns exactly to where it started. */
  lemma WithdrawThenDenyCorrected(st: Store, uid: UserId, input: WithdrawalInput, s1: Stamp, s2: Stamp)
    requires Valid(st) && st.session == Member(uid) && Admissible(Current(st), input)
    ensures var w := Withdraw(st, input, s1).after;
            var d := ProcessWithdrawalCorrected(w, "wd_" + s1.millis, Deny, s2);
            d.outcome.Ok? && d.after.users[uid].balance == st.users[uid].balance
  {
    MemberWithdrawal(st, uid, input, s1);
    DenialCreditsOnce(Withdraw(st, input, s1).after, "wd_" + s1.millis, uid, s2);
  }

  /** A denial that credits the requester's record once: the corrected one always, the one as written under an admin session. */
  lemma DenialCreditsOnce(w: Store, id: string, uid: UserId, stamp: Stamp)
    requires Valid(w) && Resolvable(w, id) && RequestWithId(w, id).userId == uid
    ensures var d := ProcessWithdrawalCorrected(w, id, Deny, stamp);
            d.outcome.Ok? && uid in d.after.users
            && d.after.users[uid].balance == w.users[uid].balance + RequestWithId(w, id).amount
    ensures w.session == Operator ==>
              var d := ProcessWithdrawal(w, id, Deny, stamp);
              d.outcome.Ok? && uid in d.after.users
              && d.after.users[uid].balance == w.users[uid].balance + RequestWithId(w, id).amount
  {
  }

  /** After the administrator signs in, the denial as written credits the requester's record once. */
  lemma AdminDenialCreditsOnce(w: Store, id: string, uid: UserId, stamp: Stamp)
    requires Valid(w) && Resolvable(w, id) && RequestWithId(w, id).userId == uid
    ensures var a := Accounts.AdminLogin(w, Accounts.AdminEmail, Accounts.AdminPassword).after;
            var d := ProcessWithdrawal(a, id, Deny, stamp);
            d.outcome.Ok? && uid in d.after.users
            && d.after.users[uid].balance == w.users[uid].balance + RequestWithId(w, id).amount
  {
    var a := Accounts.AdminLogin(w, Accounts.AdminEmail, Accounts.AdminPassword).after;
    assert a == w.(session := Operator);
    DenialCreditsOnce(a, id, uid, stamp);
  }

  /**
   * Once the administrator has signed in, the current user is the separate admin object, so the
   * denial as written credits the member's record once and restores it exactly.
   */
  lemma WithdrawThenDenyAfterAdminLogin(st: Store, uid: UserId, input: WithdrawalInput, s1: Stamp, s2: Stamp)
    requires Valid(st) && st.session == Member(uid) && Admissible(Current(st), input)
    ensures var w := Withdraw(st, input, s1).after;
            var a := Accounts.AdminLogin(w, Accounts.AdminEmail, Accounts.AdminPassword).after;
            var d := ProcessWithdrawal(a, "wd_" + s1.millis, Deny, s2);
            d.outcome.Ok? && d.after.users[uid].balance == st.users[uid].balance
  {
    MemberWithdrawal(st, uid, input, s1);
    AdminDenialCreditsOnce(Withdraw(st, input, s1).after, "wd_" + s1.millis, uid, s2);
  }

  // ---------------------------------------------------------------------------------------
  // Each request resolves once.
  // ---------------------------------------------------------------------------------------

  /** No two queued requests share an id. */
  predicate UniqueIds(queue: seq<WithdrawalRequest>) {
    forall a, b | 0 <= a < b < |queue| :: queue[a].id != queue[b].id
  }

  /** Once a request has been resolved (or dropped as an orphan), resolving it again reports it missing and changes nothing. */
  lemma ResolvesOnce(st: Store, withdrawalId: string, first: Decision, second: Decision, s1: Stamp, s2: Stamp)
    requires Valid(st) && UniqueIds(st.withdrawals) && 0 <= FindRequest(st.withdrawals, withdrawalId)
    ensures var once := ProcessWithdrawal(st, withdrawalId, first, s1).after;
            ProcessWithdrawal(once, withdrawalId, second, s2) == Reply(Err(WithdrawalNotFound), once)
  {
    var i := FindRequest(st.withdrawals, withdrawalId);
    var once := ProcessWithdrawal(st, withdrawalId, first, s1).after;
    var rest := once.withdrawals;
    assert rest == Seqs.RemoveAt(st.withdrawals, i);
    forall j | 0 <= j < |rest|
      ensures rest[j].id != withdrawalId
    {
      if j < i {
        assert rest[j] == st.withdrawals[j];
      } else {
        assert rest[j] == st.withdrawals[j + 1];
      }
    }
  }
}

=== FILE: pagination.dfy ===
/**
 * Paging of the two transaction logs (`mockFetchTransactions` over the session log and
 * `mockFetchAllTransactions` over the global log), with JavaScript's `Array.prototype.slice`
 * reading of negative positions.
 */
module Pagination {
  import opened Domain
  import opened Store

  function Min(a: int, b: int): int {
    if a <= b then a else b
  }

  function Max(a: int, b: int): int {
    if a <= b then b else a
  }

  /** A `slice` position: a negative one counts back from the end; both are clamped to `[0, len]`. */
  function SlicePosition(i: int, len: nat): (c: nat)
    ensures c <= len
    ensures 0 <= i ==> c == Min(i, len)
    ensures i < 0 ==> c == Max(len + i, 0)
  {
    if i < 0 then (if len + i < 0 then 0 else len + i)
    else if i < len then i else len
  }

  /** `Array.prototype.slice(start, end)`. */
  function JsSlice<T>(s: seq<T>, start: int, end: int): (r: seq<T>)
    ensures var a := SlicePosition(start, |s|);
            var b := SlicePosition(end, |s|);
            && (a < b ==> r == s[a..b])
            && (b <= a ==> r == [])
  {
    var a := SlicePosition(start, |s|);
    var b := SlicePosition(end, |s|);
    if a < b then s[a..b] else []
  }

  /** `Math.ceil(n / d)` for a positive divisor. */
  function CeilDiv(n: nat, d: nat): (q: nat)
    requires d >= 1
    ensures q * d >= n
    ensures q == 0 || (q - 1) * d < n
  {
    (n + d - 1) / d
  }

  datatype Page<T> = Page(items: seq<T>, totalPages: nat, currentPage: int)

  /** The log position where page `page` starts, counting pages from 1. */
  function PageStart(page: int, limit: int): int {
    (page - 1) * limit
  }

  /** Where a page starts relative to the log's first entry, by the sign of the page number. */
  lemma PageStartSign(page: int, limit: int)
    requires limit >= 1
    ensures page >= 1 ==> PageStart(page, limit) >= 0
    ensures page == 0 ==> PageStart(page, limit) + limit == 0
    ensures page < 0 ==> PageStart(page, limit) + limit < 0
  {
    if page < 0 {
      assert PageStart(page, limit) + limit == page * limit;
    }
  }

  /** The `limit` entries from position `start`, as `slice(start, start + limit)` reads them. */
  function Window<T>(log: seq<T>, start: int, limit: int): (w: seq<T>)
    requires limit >= 1
    ensures |w| <= limit
    ensures 0 <= start ==> w == log[Min(start, |log|)..Min(start + limit, |log|)]
    ensures start + limit == 0 ==> w == []
    ensures start + limit < 0 ==> w == log[Max(|log| + start, 0)..Max(|log| + start + limit, 0)]
  {
    JsSlice(log, start, start + limit)
  }

  /**
   * Page `page` of `log` at `limit` entries per page, counting pages from 1. Page 0 is empty; a
   * negative page starts at a negative position, which `slice` counts back from the end of the log.
   */
  function Paginate<T>(log: seq<T>, page: int, limit: int): (p: Page<T>)
    requires limit >= 1
    ensures p.currentPage == page
    ensures |p.items| <= limit
    ensures p.totalPages * limit >= |log| && (p.totalPages == 0 || (p.totalPages - 1) * limit < |log|)
    ensures var start := PageStart(page, limit);
            page >= 1 ==> 0 <= start && p.items == log[Min(start, |log|)..Min(start + limit, |log|)]
    ensures page == 0 ==> p.items == []
    ensures var start := PageStart(page, limit);
            page < 0 ==> p.items == log[Max(|log| + start, 0)..Max(|log| + start + limit, 0)]
  {
    PageWindow(log, page, limit);
    Page(Window(log, PageStart(page, limit), limit), CeilDiv(|log|, limit), page)
  }

  /** The window a page number selects, by the sign of the page number. */
  lemma PageWindow<T>(log: seq<T>, page: int, limit: int)
    requires limit >= 1
    ensures var start := PageStart(page, limit);
            var w := Window(log, start, limit);
            && (page >= 1 ==> 0 <= start && w == log[Min(start, |log|)..Min(start + limit, |log|)])
            && (page == 0 ==> w == [])
            && (page < 0 ==> w == log[Max(|log| + start, 0)..Max(|log| + start + limit, 0)])
  {
    PageStartSign(page, limit);
  }

  /** `a <= b` scaled by a positive factor. */
  lemma ScaleLe(a: int, b: int, c: int)
    requires a <= b && c >= 1
    ensures a * c <= b * c
  {
    assert b * c - a * c == (b - a) * c;
  }

  /** Every page from the first to the last holds at least one entry. */
  lemma PagesInRangeAreFilled<T>(log: seq<T>, page: int, limit: int)
    requires limit >= 1
    requires 1 <= page <= Paginate(log, page, limit).totalPages
    ensures |Paginate(log, page, limit).items| >= 1
  {
    var n := Paginate(log, page, limit).totalPages;
    ScaleLe(page - 1, n - 1, limit);
  }

  /** Every page after the last is empty. */
  lemma PagesPastTheEndAreEmpty<T>(log: seq<T>, page: int, limit: int)
    requires limit >= 1
    requires page > Paginate(log, page, limit).totalPages
    ensures Paginate(log, page, limit).items == []
  {
    var n := Paginate(log, page, limit).totalPages;
    ScaleLe(n, page - 1, limit);
  }

  /** `mockFetchTransactions`: a page of the current session's log. */
  function FetchTransactions(st: Store, page: int, limit: int): (p: Page<Transaction>)
    requires limit >= 1
    ensures p == Paginate(st.userLog, page, limit)
    ensures p.currentPage == page
    ensures p.totalPages * limit >= |st.userLog| && (p.totalPages == 0 || (p.totalPages - 1) * limit < |st.userLog|)
    ensures page >= 1 ==> p.items == st.userLog[Min(PageStart(page, limit), |st.userLog|)..Min(page * limit, |st.userLog|)]
    ensures forall j | 0 <= j < |p.items| :: p.items[j] in st.userLog
  {
    Paginate(st.userLog, page, limit)
  }

  /** `mockFetchAllTransactions`: a page of the global log. */
  function FetchAllTransactions(st: Store, page: int, limit: int): (p: Page<Transaction>)
    requires limit >= 1
    ensures p == Paginate(st.globalLog, page, limit)
    ensures p.currentPage == page
    ensures p.totalPages * limit >= |st.globalLog| && (p.totalPages == 0 || (p.totalPages - 1) * limit < |st.globalLog|)
    ensures page >= 1 ==> p.items == st.globalLog[Min(PageStart(page, limit), |st.globalLog|)..Min(page * limit, |st.globalLog|)]
    ensures forall j | 0 <= j < |p.items| :: p.items[j] in st.globalLog
  {
    Paginate(st.globalLog, page, limit)
  }

  /** Pages `1..n` of `log`, one after the other. */
  function PagesUpTo<T>(log: seq<T>, n: nat, limit: int): seq<T>
    requires limit >= 1
  {
    if n == 0 then [] else PagesUpTo(log, n - 1, limit) + Paginate(log, n, limit).items
  }

  /** Page `n` holds the entries from the end of page `n - 1` to the `n * limit`-th, clipped to the log. */
  lemma PageBetween<T>(log: seq<T>, n: nat, limit: int)
    requires limit >= 1 && n >= 1
    ensures (n - 1) * limit <= n * limit
    ensures Paginate(log, n, limit).items == log[Min((n - 1) * limit, |log|)..Min(n * limit, |log|)]
  {
    assert PageStart(n, limit) + limit == n * limit;
  }

  /** The first `n` pages together are the log's first `n * limit` entries. */
  lemma {:induction false} PagesUpToArePrefix<T>(log: seq<T>, n: nat, limit: int)
    requires limit >= 1
    ensures PagesUpTo(log, n, limit) == log[..Min(n * limit, |log|)]
  {
    if n > 0 {
      var before := PagesUpTo(log, n - 1, limit);
      var page := Paginate(log, n, limit).items;
      assert PagesUpTo(log, n, limit) == before + page;
      PagesUpToArePrefix(log, n - 1, limit);
      PageBetween(log, n, limit);
      var a := Min((n - 1) * limit, |log|);
      var b := Min(n * limit, |log|);
      assert before == log[..a] && page == log[a..b];
      assert log[..a] + log[a..b] == log[..b];
    }
  }

  /** Reading every page from the first to the last gives back the whole log, in order and without gaps. */
  lemma PagesCoverLog<T>(log: seq<T>, limit: int)
    requires limit >= 1
    ensures PagesUpTo(log, Paginate(log, 1, limit).totalPages, limit) == log
  {
    var n := Paginate(log, 1, limit).totalPages;
    PagesUpToArePrefix(log, n, limit);
    assert log[..|log|] == log;
  }
}

=== FILE: password_strength.dfy ===
/**
 * The password-strength meter shown under password fields: a score from 0 to 3 and a label,
 * from the password's length and the character classes it uses.
 */
module PasswordStrength {
  import Text
  import Validation

  /** The four classes the meter looks for; `Symbol` is every character outside ASCII letters and digits. */
  datatype CharClass = Upper | Lower | Digit | Symbol

  function ClassOf(c: char): (k: CharClass)
    ensures k == Upper <==> Text.IsUpper(c)
    ensures k == Lower <==> Text.IsLower(c)
    ensures k == Digit <==> Text.IsDigit(c)
  {
    if Text.IsUpper(c) then Upper
    else if Text.IsLower(c) then Lower
    else if Text.IsDigit(c) then Digit
    else Symbol
  }

  /** One of the meter's regular-expression tests: some character of `p` is of class `k`. */
  predicate Has(p: string, k: CharClass) {
    exists i | 0 <= i < |p| :: ClassOf(p[i]) == k
  }

  /** How many of the four tests pass. */
  function Variations(p: string): nat {
    (if Has(p, Upper) then 1 else 0) + (if Has(p, Lower) then 1 else 0)
    + (if Has(p, Digit) then 1 else 0) + (if Has(p, Symbol) then 1 else 0)
  }

  datatype Strength = Strength(score: nat, caption: string)

  /** The label that goes with each score of a password of eight or more characters. */
  function Label(score: nat): string {
    if score == 3 then "Strong" else if score == 2 then "Medium" else "Weak"
  }

  /**
   * `getPasswordStrength`: nothing for the empty password, "Too short" below eight characters,
   * otherwise the passing tests plus one for more than twelve characters, banded into three grades.
   */
  function GetPasswordStrength(p: string): (r: Strength)
    ensures r.score <= 3
    ensures r.score == 0 <==> p == ""
    ensures p == "" ==> r.caption == ""
    ensures 0 < |p| < 8 ==> r == Strength(1, "Too short")
    ensures |p| >= 8 ==> 1 <= r.score && r.caption == Label(r.score)
  {
    if p == "" then Strength(0, "")
    else if |p| < 8 then Strength(1, "Too short")
    else
      var raw := Variations(p) + (if |p| > 12 then 1 else 0);
      if raw > 3 then Strength(3, "Strong")
      else if raw > 2 then Strength(2, "Medium")
      else Strength(1, "Weak")
  }

  /** The classes a password uses, as a set. */
  function Classes(p: string): set<CharClass> {
    set i | 0 <= i < |p| :: ClassOf(p[i])
  }

  /** The classes of a given presence pattern, as a set. */
  function Present(u: bool, l: bool, d: bool, s: bool): set<CharClass> {
    (if u then {Upper} else {}) + (if l then {Lower} else {}) + (if d then {Digit} else {}) + (if s then {Symbol} else {})
  }

  lemma PresentSize(u: bool, l: bool, d: bool, s: bool)
    ensures |Present(u, l, d, s)| == (if u then 1 else 0) + (if l then 1 else 0) + (if d then 1 else 0) + (if s then 1 else 0)
  {
    var a: set<CharClass> := if u then {Upper} else {};
    var b: set<CharClass> := if l then {Lower} else {};
    var c: set<CharClass> := if d then {Digit} else {};
    var e: set<CharClass> := if s then {Symbol} else {};
    assert a !! b && (a + b) !! c && (a + b + c) !! e;
  }

  /** A class is among the password's classes exactly when its test passes. */
  lemma ClassesMeaning(p: string, k: CharClass)
    ensures k in Classes(p) <==> Has(p, k)
  {
    if Has(p, k) {
      var i :| 0 <= i < |p| && ClassOf(p[i]) == k;
      assert ClassOf(p[i]) in Classes(p);
    }
  }

  /** The four tests count exactly the distinct classes the password uses. */
  lemma VariationsCountClasses(p: string)
    ensures Variations(p) == |Classes(p)|
  {
    var all := Present(Has(p, Upper), Has(p, Lower), Has(p, Digit), Has(p, Symbol));
    forall k: CharClass
      ensures k in Classes(p) <==> k in all
    {
      ClassesMeaning(p, k);
    }
    assert Classes(p) == all;
    PresentSize(Has(p, Upper), Has(p, Lower), Has(p, Digit), Has(p, Symbol));
  }

  /**
   * The grade of a password of eight or more characters, by the number of classes it uses:
   * Strong with all four, or three and more than twelve characters; Medium one step below; Weak otherwise.
   */
  lemma GradeByClasses(p: string)
    requires |p| >= 8
    ensures var n := |Classes(p)| + (if |p| > 12 then 1 else 0);
            var r := GetPasswordStrength(p);
            && (r.caption == "Strong" <==> n >= 4)
            && (r.caption == "Medium" <==> n == 3)
            && (r.caption == "Weak" <==> n <= 2)
  {
    VariationsCountClasses(p);
  }

  /** A Strong password uses at least three classes. */
  lemma StrongNeedsThreeClasses(p: string)
    requires GetPasswordStrength(p).caption == "Strong"
    ensures |Classes(p)| >= 3
  {
    VariationsCountClasses(p);
  }

  /** A class test that passes for `p` passes for any extension of it. */
  lemma HasExtends(p: string, q: string, k: CharClass)
    requires Has(p, k)
    ensures Has(p + q, k)
  {
    var i :| 0 <= i < |p| && ClassOf(p[i]) == k;
    assert (p + q)[i] == p[i];
  }

  /** For a password of eight or more characters, typing more never lowers the score. */
  lemma AppendingNeverWeakens(p: string, q: string)
    requires |p| >= 8
    ensures GetPasswordStrength(p + q).score >= GetPasswordStrength(p).score
  {
    forall k | Has(p, k)
      ensures Has(p + q, k)
    {
      HasExtends(p, q, k);
    }
  }

  /** The shared mock password is graded Weak: lower-case letters and digits, eleven characters. */
  lemma SharedPasswordIsWeak()
    ensures GetPasswordStrength("password123") == Strength(1, "Weak")
  {
    var p := "password123";
    assert ClassOf(p[0]) == Lower && ClassOf(p[8]) == Digit;
    assert forall i | 0 <= i < |p| :: ClassOf(p[i]) == Lower || ClassOf(p[i]) == Digit;
    assert !Has(p, Upper) && !Has(p, Symbol);
  }

  /** A password the sign-up validator accepts is graded Weak, Medium or Strong, never "Too short". */
  lemma AcceptedPasswordIsGraded(p: string)
    requires Validation.ValidatePassword(p).Pass?
    ensures GetPasswordStrength(p).caption in {"Weak", "Medium", "Strong"}
    ensures GetPasswordStrength(p).score >= 1
  {
  }
}

=== FILE: seqs.dfy ===
/** Generic sequence operations that model the JavaScript array methods the application uses. */
module Seqs {

  /** `xs` is obtained from `ys` by deleting zero or more elements, keeping the order of the rest. */
  ghost predicate IsSubsequence<T>(xs: seq<T>, ys: seq<T>)
    decreases |ys|
  {
    if |xs| == 0 then true
    else if |ys| == 0 then false
    else if xs[0] == ys[0] then IsSubsequence(xs[1..], ys[1..])
    else IsSubsequence(xs, ys[1..])
  }

  /** `Array.prototype.findIndex`: the position of the first element satisfying `p`, or -1. */
  function FirstIndex<T>(s: seq<T>, p: T -> bool): (k: int)
    ensures -1 <= k < |s|
    ensures k == -1 <==> forall j | 0 <= j < |s| :: !p(s[j])
    ensures 0 <= k ==> p(s[k]) && forall j | 0 <= j < k :: !p(s[j])
  {
    if |s| == 0 then -1
    else if p(s[0]) then 0
    else
      var k := FirstIndex(s[1..], p);
      if k == -1 then -1 else k + 1
  }

  /** `Array.prototype.splice(i, 1)`: the sequence without its element at position `i`. */
  function RemoveAt<T>(s: seq<T>, i: nat): (r: seq<T>)
    requires i < |s|
    ensures |r| == |s| - 1
    ensures forall j | 0 <= j < i :: r[j] == s[j]
    ensures forall j | i <= j < |r| :: r[j] == s[j + 1]
  {
    s[..i] + s[i + 1..]
  }

  /** `Array.prototype.filter`: the elements of `s` satisfying `p`, in their original order. */
  function Filter<T(!new)>(s: seq<T>, p: T -> bool): (r: seq<T>)
    ensures |r| <= |s|
    ensures forall j | 0 <= j < |r| :: r[j] in s && p(r[j])
    ensures forall j | 0 <= j < |s| :: p(s[j]) ==> s[j] in r
  {
    if |s| == 0 then []
    else if p(s[0]) then [s[0]] + Filter(s[1..], p)
    else Filter(s[1..], p)
  }

  /** The filtered sequence keeps the surviving elements in their original order. */
  lemma {:induction false} FilterIsSubsequence<T(!new)>(s: seq<T>, p: T -> bool)
    ensures IsSubsequence(Filter(s, p), s)
    decreases |s|
  {
    if |s| > 0 {
      var rest := Filter(s[1..], p);
      FilterIsSubsequence(s[1..], p);
      if p(s[0]) {
        assert Filter(s, p) == [s[0]] + rest;
        assert ([s[0]] + rest)[1..] == rest;
      }
    }
  }

  /** Filtering keeps every surviving element as many times as it occurs, and no other. */
  lemma {:induction false} FilterCounts<T(!new)>(s: seq<T>, p: T -> bool)
    ensures forall x :: multiset(Filter(s, p))[x] == if p(x) then multiset(s)[x] else 0
  {
    if |s| > 0 {
      FilterCounts(s[1..], p);
      assert s == [s[0]] + s[1..];
      assert multiset(s) == multiset{s[0]} + multiset(s[1..]);
    }
  }

  /** Filtering with a predicate every element satisfies keeps the whole sequence. */
  lemma {:induction false} FilterAll<T(!new)>(s: seq<T>, p: T -> bool)
    requires forall j | 0 <= j < |s| :: p(s[j])
    ensures Filter(s, p) == s
    decreases |s|
  {
    if |s| > 0 {
      FilterAll(s[1..], p);
      assert [s[0]] + s[1..] == s;
    }
  }

  /** Filtering a concatenation filters each part. */
  lemma {:induction false} FilterAppend<T(!new)>(a: seq<T>, b: seq<T>, p: T -> bool)
    ensures Filter(a + b, p) == Filter(a, p) + Filter(b, p)
    decreases |a|
  {
    if |a| > 0 {
      FilterAppend(a[1..], b, p);
      assert (a + b)[0] == a[0];
      assert (a + b)[1..] == a[1..] + b;
    } else {
      assert a + b == b;
    }
  }

  /** A subsequence of the tail of `ys` is a subsequence of `ys`. */
  lemma {:induction false} SubsequenceOfTail<T>(xs: seq<T>, ys: seq<T>)
    requires |ys| > 0
    requires IsSubsequence(xs, ys[1..])
    ensures IsSubsequence(xs, ys)
    decreases |ys|, 0
  {
    if |xs| > 0 && xs[0] == ys[0] {
      SubsequenceDropHead(xs, ys[1..]);
    }
  }

  /** Dropping the first element of a subsequence leaves a subsequence. */
  lemma {:induction false} SubsequenceDropHead<T>(xs: seq<T>, zs: seq<T>)
    requires |xs| > 0
    requires IsSubsequence(xs, zs)
    ensures IsSubsequence(xs[1..], zs)
    decreases |zs|, 1
  {
    assert |zs| > 0;
    if xs[0] == zs[0] {
      SubsequenceOfTail(xs[1..], zs);
    } else {
      SubsequenceDropHead(xs, zs[1..]);
      SubsequenceOfTail(xs[1..], zs);
    }
  }
}

=== FILE: settings_tab.dfy ===
/**
 * The dashboard's settings tab: the profile form, the password form, the two-step withdrawal PIN
 * set-up and the 2FA switch with its confirmation dialog. Each keeps the signed-in user's local
 * copy in step with what the backend was told.
 */
module SettingsTab {
  import opened Wrappers
  import opened Domain
  import opened Store
  import Accounts

  // ---------------------------------------------------------------------------------------
  // Profile.
  // ---------------------------------------------------------------------------------------

  const ProfileSaved: string := "Profile updated successfully!"

  datatype ProfileSaveResult = ProfileSaveResult(after: Store, user: Option<User>, message: string)

  /** Saving the profile sends both names; the returned user replaces the local copy of a signed-in user. */
  function SaveProfile(st: Store, user: Option<User>, firstName: string, lastName: string): (r: ProfileSaveResult)
    requires Valid(st)
    ensures r.after == Accounts.UpdateProfile(st, firstName, lastName).after
    ensures r.user.Some? <==> user.Some?
    ensures r.user.Some? ==> r.user.value == Current(r.after)
    ensures r.message == ProfileSaved
  {
    var reply := Accounts.UpdateProfile(st, firstName, lastName);
    ProfileSaveResult(reply.after, if user.Some? then Some(reply.outcome.value) else None, ProfileSaved)
  }

  /** After saving, the local copy carries the new names and the backend's record of every other field. */
  lemma SavedProfileMatchesBackend(st: Store, u: User, firstName: string, lastName: string)
    requires Valid(st)
    ensures var r := SaveProfile(st, Some(u), firstName, lastName);
            r.user == Some(Current(st).(firstName := firstName, lastName := lastName))
  {
  }

  // ---------------------------------------------------------------------------------------
  // Password.
  // ---------------------------------------------------------------------------------------

  const PasswordMismatch: string := "New passwords do not match."
  const PasswordUpdated: string := "Password updated successfully. Please log in again."

  datatype PasswordForm = PasswordForm(
    current: string, newPassword: string, confirm: string, message: string, error: string, logoutScheduled: bool)

  /**
   * The password form: mismatching new passwords are refused on the spot. Otherwise the backend
   * (which stores no password) acknowledges and a sign-out is scheduled.
   */
  function ChangePassword(f: PasswordForm): (g: PasswordForm)
    ensures f.newPassword != f.confirm ==> g == f.(error := PasswordMismatch)
    ensures f.newPassword == f.confirm ==> g == f.(error := "", message := PasswordUpdated, logoutScheduled := true)
    ensures g.logoutScheduled <==> f.logoutScheduled || f.newPassword == f.confirm
  {
    if f.newPassword != f.confirm then f.(error := PasswordMismatch)
    else f.(error := "", message := PasswordUpdated, logoutScheduled := true)
  }

  // ---------------------------------------------------------------------------------------
  // Withdrawal PIN.
  // ---------------------------------------------------------------------------------------

  const PinLengthError: string := "PIN must be between 4 and 6 digits."
  const PinMismatchError: string := "PINs do not match."
  const PinCodeSent: string := "A verification code has been sent to your email."

  datatype PinStep = EnterPin | EnterCode

  datatype PinForm = PinForm(step: PinStep, newPin: string, confirmPin: string, code: string, message: string, error: string)

  const InitialPinForm: PinForm := PinForm(EnterPin, "", "", "", "", "")

  /** What the PIN card shows: a notice once a PIN is set, otherwise the current step. */
  datatype PinView = PinAlreadySet | PinSetup(step: PinStep)

  function PinViewFor(user: Option<User>, f: PinForm): (v: PinView)
    ensures v == PinAlreadySet <==> user.Some? && user.value.hasPin
    ensures v.PinSetup? ==> v.step == f.step
  {
    if user.Some? && user.value.hasPin then PinAlreadySet else PinSetup(f.step)
  }

  /**
   * First step: the new PIN must be 4 to 6 characters long (digits are not checked) and match its
   * confirmation; then the emailed code is requested and the card moves to the code step.
   */
  function SendToken(f: PinForm): (g: PinForm)
    ensures !(4 <= |f.newPin| <= 6) ==> g == f.(error := PinLengthError)
    ensures 4 <= |f.newPin| <= 6 && f.newPin != f.confirmPin ==> g == f.(error := PinMismatchError)
    ensures g.step == EnterCode <==> f.step == EnterCode || (4 <= |f.newPin| <= 6 && f.newPin == f.confirmPin)
    ensures 4 <= |f.newPin| <= 6 && f.newPin == f.confirmPin ==>
              g == f.(step := EnterCode, error := "", message := PinCodeSent)
  {
    if |f.newPin| < 4 || |f.newPin| > 6 then f.(error := PinLengthError)
    else if f.newPin != f.confirmPin then f.(error := PinMismatchError)
    else f.(step := EnterCode, error := "", message := PinCodeSent)
  }

  datatype PinResult = PinResult(after: Store, user: Option<User>, form: PinForm)

  /**
   * Second step: the emailed code goes to the backend. On success the local copy has a PIN and
   * the card returns to its first step with the PIN fields cleared; on failure it stays put.
   */
  function ConfirmPin(st: Store, user: Option<User>, f: PinForm): (r: PinResult)
    requires Valid(st)
    ensures var reply := Accounts.SetPin(st, f.code);
            && r.after == reply.after
            && (reply.outcome.Ok? ==>
                  && r.form == f.(step := EnterPin, newPin := "", confirmPin := "", message := reply.outcome.value, error := "")
                  && r.user == (if user.Some? then Some(user.value.(hasPin := true)) else None))
            && (reply.outcome.Err? ==>
                  r.form == f.(message := "", error := Message(reply.outcome.error)) && r.user == user)
  {
    var reply := Accounts.SetPin(st, f.code);
    var cleared := f.(message := "", error := "");
    match reply.outcome
    case Ok(message) =>
      PinResult(reply.after, if user.Some? then Some(user.value.(hasPin := true)) else None,
                cleared.(step := EnterPin, newPin := "", confirmPin := "", message := message))
    case Err(e) => PinResult(reply.after, user, cleared.(error := Message(e)))
  }

  /** The two steps with a well-formed PIN and the master code leave a PIN set both locally and in the backend. */
  lemma PinSetupFlow(st: Store, u: User, pin: string, code: string)
    requires Valid(st) && 4 <= |pin| <= 6 && CodeValid(code)
    ensures var sent := SendToken(InitialPinForm.(newPin := pin, confirmPin := pin));
            var r := ConfirmPin(st, Some(u), sent.(code := code));
            && sent.step == EnterCode
            && PinViewFor(r.user, r.form) == PinAlreadySet
            && Current(r.after).hasPin
  {
  }

  /**
   * The chosen PIN is never sent: whatever PIN is entered, the backend ends in the same state
   * (withdrawals are checked against the master code instead).
   */
  lemma ChosenPinIsDiscarded(st: Store, user: Option<User>, a: string, b: string, code: string)
    requires Valid(st)
    ensures var ra := ConfirmPin(st, user, SendToken(InitialPinForm.(newPin := a, confirmPin := a)).(code := code));
            var rb := ConfirmPin(st, user, SendToken(InitialPinForm.(newPin := b, confirmPin := b)).(code := code));
            ra.after == rb.after && ra.user == rb.user
  {
  }

  // ---------------------------------------------------------------------------------------
  // Two-factor authentication.
  // ---------------------------------------------------------------------------------------

  datatype Dialog = Closed | EnableDialog(secret: string) | DisableDialog

  datatype TwoFactorPanel = TwoFactorPanel(dialog: Dialog, code: string, error: string)

  /**
   * The switch: with 2FA on it opens the disable dialog straight away; with 2FA off it asks the
   * backend for a secret first and shows it in the enable dialog.
   */
  function Toggle(st: Store, user: Option<User>, p: TwoFactorPanel): (r: (Store, TwoFactorPanel))
    requires Valid(st)
    ensures r.1.dialog == DisableDialog <==> user.Some? && user.value.is2faEnabled
    ensures user.Some? && user.value.is2faEnabled ==> r.0 == st
    ensures !(user.Some? && user.value.is2faEnabled) ==>
              r.0 == Accounts.Enable2FA(st).after && r.1.dialog == EnableDialog(Accounts.TwoFactorSecret)
    ensures r.1.error == "" && r.1.code == p.code
  {
    if user.Some? && user.value.is2faEnabled then (st, p.(dialog := DisableDialog, error := ""))
    else
      var reply := Accounts.Enable2FA(st);
      (reply.after, p.(dialog := EnableDialog(reply.outcome.value), error := ""))
  }

  datatype CodeResult = CodeResult(after: Store, user: Option<User>, panel: TwoFactorPanel)

  /**
   * Submitting the dialog's code: the enable dialog verifies it, the disable dialog disables 2FA.
   * On success the local copy follows and the dialog closes with its code cleared.
   */
  function SubmitCode(st: Store, user: Option<User>, p: TwoFactorPanel): (r: CodeResult)
    requires Valid(st) && p.dialog != Closed
    ensures var on := p.dialog.EnableDialog?;
            var reply := if on then Accounts.Verify2FA(st, p.code) else Accounts.Disable2FA(st, p.code);
            && r.after == reply.after
            && (reply.outcome.Ok? ==>
                  && r.panel == TwoFactorPanel(Closed, "", "")
                  && r.user == (if user.Some? then Some(user.value.(is2faEnabled := on)) else None))
            && (reply.outcome.Err? ==> r.panel == p.(error := Message(reply.outcome.error)) && r.user == user)
  {
    var on := p.dialog.EnableDialog?;
    var reply := if on then Accounts.Verify2FA(st, p.code) else Accounts.Disable2FA(st, p.code);
    match reply.outcome
    case Ok(_) =>
      CodeResult(reply.after, if user.Some? then Some(user.value.(is2faEnabled := on)) else None, TwoFactorPanel(Closed, "", ""))
    case Err(e) => CodeResult(reply.after, user, p.(error := Message(e)))
  }

  /** Switching 2FA on and confirming with the master code turns it on locally and in the backend. */
  lemma EnableFlow(st: Store, u: User, code: string)
    requires Valid(st) && !u.is2faEnabled && CodeValid(code)
    ensures var t := Toggle(st, Some(u), TwoFactorPanel(Closed, code, ""));
            var r := SubmitCode(t.0, Some(u), t.1);
            && r.user == Some(u.(is2faEnabled := true))
            && Current(r.after).is2faEnabled
            && r.panel.dialog == Closed
  {
  }

  /** Switching 2FA off and confirming with the master code turns it off locally and in the backend. */
  lemma DisableFlow(st: Store, u: User, code: string)
    requires Valid(st) && u.is2faEnabled && CodeValid(code)
    ensures var t := Toggle(st, Some(u), TwoFactorPanel(Closed, code, ""));
            var r := SubmitCode(t.0, Some(u), t.1);
            && r.user == Some(u.(is2faEnabled := false))
            && !Current(r.after).is2faEnabled
            && r.panel.dialog == Closed
  {
  }
}

=== FILE: store.dfy ===
/**
 * The in-memory mock backend's state: the user records, the current-user binding, the two
 * transaction logs, the two admin review queues, the admin pending-withdrawal counter and the
 * one-slot pending registration. Every API operation is a function from a `Store` to a `Reply`.
 */
module Store {
  import opened Wrappers
  import opened Domain

  /**
   * What the current-user object is. `Member(id)` is the stored record `id` itself (the initial
   * binding and every user login share the object with the user list); `Operator` is the separate
   * admin object, which is not in the user list.
   */
  datatype Session = Member(id: UserId) | Operator

  /** The details kept between registration and payment. */
  datatype Registration = Registration(firstName: string, lastName: string, username: string, email: string)

  datatype ApiError =
    | InvalidCredentials
    | InvalidAdminCredentials
    | InvalidPin
    | InvalidTwoFactorToken
    | MissingCryptoDestination
    | InsufficientBalance
    | WithdrawalNotFound
    | RequesterNotFound
    | KycRequestNotFound
    | UserNotFound
    | InvalidVerificationCode
    | InvalidPaymentToken

  /** The message each rejected call carries. */
  function Message(e: ApiError): string {
    match e
    case InvalidCredentials => "Invalid credentials"
    case InvalidAdminCredentials => "Invalid admin credentials."
    case InvalidPin => "Invalid PIN."
    case InvalidTwoFactorToken => "Invalid 2FA token."
    case MissingCryptoDestination => "Network and address are required for crypto withdrawals."
    case InsufficientBalance => "Withdrawal amount exceeds available balance."
    case WithdrawalNotFound => "Withdrawal request not found."
    case RequesterNotFound => "Associated user not found. Request removed."
    case KycRequestNotFound => "KYC request or user not found."
    case UserNotFound => "User not found."
    case InvalidVerificationCode => "Invalid verification code."
    case InvalidPaymentToken => "Invalid payment token or session expired."
  }

  datatype Store = Store(
    users: map<UserId, User>,
    order: seq<UserId>,
    admin: User,
    session: Session,
    userLog: seq<Transaction>,
    globalLog: seq<Transaction>,
    withdrawals: seq<WithdrawalRequest>,
    kycQueue: seq<KycRequest>,
    pendingWithdrawalsCount: int,
    registration: Option<Registration>,
    twoFactorSecret: Option<string>)

  /** The result of one API call and the state it leaves behind. */
  datatype Reply<+T> = Reply(outcome: Result<T, ApiError>, after: Store)

  /**
   * The store is well formed: the current user exists, records are filed under their own id,
   * and the listing order names exactly the stored records.
   */
  predicate Valid(st: Store) {
    && (st.session.Member? ==> st.session.id in st.users)
    && (forall id | id in st.users :: st.users[id].id == id && id in st.order)
    && (forall k | 0 <= k < |st.order| :: st.order[k] in st.users)
  }

  /** The current-user object. */
  function Current(st: Store): User
    requires st.session.Member? ==> st.session.id in st.users
  {
    match st.session
    case Member(id) => st.users[id]
    case Operator => st.admin
  }

  /** The current-user object is the stored record `uid` itself, so writes to either reach both. */
  predicate Aliases(st: Store, uid: UserId) {
    st.session == Member(uid)
  }

  /** The current user carries the id `uid` (the API's `mockUser.id === uid` test). */
  predicate IsCurrent(st: Store, uid: UserId)
    requires st.session.Member? ==> st.session.id in st.users
  {
    Current(st).id == uid
  }

  /** Replaces the current-user object, which for a member is the stored record itself. */
  function WithCurrent(st: Store, u: User): (st': Store)
    requires Valid(st) && u.id == Current(st).id
    ensures Valid(st') && Current(st') == u
    ensures st'.session == st.session && st'.users.Keys == st.users.Keys
    ensures forall id | id in st.users && !Aliases(st, id) :: st'.users[id] == st.users[id]
    ensures st.session.Member? ==> st'.admin == st.admin
  {
    match st.session
    case Member(id) => st.(users := st.users[id := u])
    case Operator => st.(admin := u)
  }

  /** Files `u` under its own id, in place of the stored record with that id. */
  function PutRecord(st: Store, u: User): (st': Store)
    requires Valid(st) && u.id in st.users
    ensures Valid(st') && st'.users.Keys == st.users.Keys && st'.users[u.id] == u
    ensures forall id | id in st.users && id != u.id :: st'.users[id] == st.users[id]
    ensures st' == st.(users := st'.users)
  {
    st.(users := st.users[u.id := u])
  }

  /**
   * Only the current-user object may differ between `a` and `b`: every other record, the logs,
   * the queues, the counter, the pending registration and the issued secret are as before.
   */
  predicate OnlyCurrentTouched(a: Store, b: Store) {
    && b == a.(users := b.users, admin := b.admin)
    && b.users.Keys == a.users.Keys
    && (forall id | id in a.users && !Aliases(a, id) :: b.users[id] == a.users[id])
    && (a.session.Member? ==> b.admin == a.admin)
  }

  /**
   * The success wording of an admin action, built by appending "d" to the action's name; for
   * the refusals it reads "denyd" and "rejectd". No screen shows these messages.
   */
  function ActionDone(action: string): string {
    action + "d"
  }

  /** The one code the mock accepts for PINs, 2FA tokens and emailed verification codes. */
  const MasterCode: string := "123456"

  predicate CodeValid(code: string) {
    code == MasterCode
  }
}

=== FILE: text.dfy ===
/**
 * String helpers standing in for the JavaScript string methods the application calls:
 * `toLowerCase`, `toUpperCase`, `includes` and `split`. Case mapping covers the ASCII letters.
 */
module Text {

  predicate IsUpper(c: char) { 'A' <= c <= 'Z' }

  predicate IsLower(c: char) { 'a' <= c <= 'z' }

  predicate IsDigit(c: char) { '0' <= c <= '9' }

  /** The regular-expression word characters `[A-Za-z0-9_]`. */
  predicate IsWordChar(c: char) { IsUpper(c) || IsLower(c) || IsDigit(c) || c == '_' }

  function LowerChar(c: char): (d: char)
    ensures IsUpper(c) ==> IsLower(d) && d as int == c as int + 32
    ensures !IsUpper(c) ==> d == c
  {
    if IsUpper(c) then (c as int + 32) as char else c
  }

  function UpperChar(c: char): (d: char)
    ensures IsLower(c) ==> IsUpper(d) && d as int == c as int - 32
    ensures !IsLower(c) ==> d == c
  {
    if IsLower(c) then (c as int - 32) as char else c
  }

  /** `String.prototype.toLowerCase`, restricted to ASCII letters. */
  function ToLower(s: string): (r: string)
    ensures |r| == |s|
    ensures forall i | 0 <= i < |s| :: r[i] == LowerChar(s[i])
  {
    seq(|s|, i requires 0 <= i < |s| => LowerChar(s[i]))
  }

  /** `String.prototype.toUpperCase`, restricted to ASCII letters. */
  function ToUpper(s: string): (r: string)
    ensures |r| == |s|
    ensures forall i | 0 <= i < |s| :: r[i] == UpperChar(s[i])
  {
    seq(|s|, i requires 0 <= i < |s| => UpperChar(s[i]))
  }

  /** Lower-casing is idempotent, so the result of `ToLower` is already in lower case. */
  lemma ToLowerIdempotent(s: string)
    ensures ToLower(ToLower(s)) == ToLower(s)
  {
  }

  /** `t` occurs in `s` starting at position `i`. */
  predicate OccursAt(s: string, t: string, i: int) {
    0 <= i && i + |t| <= |s| && s[i..i + |t|] == t
  }

  /** `String.prototype.includes`. */
  predicate Contains(s: string, t: string) {
    exists i | 0 <= i <= |s| - |t| :: OccursAt(s, t, i)
  }

  /** A string that contains no character outside `ok` contains no string whose first character is outside `ok`. */
  lemma AbsentLead(s: string, t: string, ok: char -> bool)
    requires |t| > 0 && !ok(t[0])
    requires forall i | 0 <= i < |s| :: ok(s[i])
    ensures !Contains(s, t)
  {
    forall i | 0 <= i <= |s| - |t|
      ensures !OccursAt(s, t, i)
    {
      assert s[i..i + |t|][0] == s[i];
    }
  }

  /** `String.prototype.split` with a one-character separator. */
  function Split(s: string, sep: char): (parts: seq<string>)
    ensures |parts| >= 1
    decreases |s|
  {
    if |s| == 0 then [""]
    else if s[0] == sep then [""] + Split(s[1..], sep)
    else
      var rest := Split(s[1..], sep);
      [[s[0]] + rest[0]] + rest[1..]
  }

  /** `Array.prototype.join` with a one-character separator. */
  function Join(parts: seq<string>, sep: char): string
    requires |parts| >= 1
    decreases |parts|
  {
    if |parts| == 1 then parts[0] else parts[0] + [sep] + Join(parts[1..], sep)
  }

  predicate Free(s: string, sep: char) {
    forall i | 0 <= i < |s| :: s[i] != sep
  }

  /** Splitting loses nothing: joining the pieces gives back the string, and no piece holds a separator. */
  lemma {:induction false} SplitJoin(s: string, sep: char)
    ensures Join(Split(s, sep), sep) == s
    ensures forall k | 0 <= k < |Split(s, sep)| :: Free(Split(s, sep)[k], sep)
    decreases |s|
  {
    if |s| == 0 {
    } else if s[0] == sep {
      SplitJoin(s[1..], sep);
      assert Split(s, sep)[1..] == Split(s[1..], sep);
      assert s == [sep] + s[1..];
    } else {
      var rest := Split(s[1..], sep);
      SplitJoin(s[1..], sep);
      var parts := Split(s, sep);
      assert parts[0] == [s[0]] + rest[0];
      assert parts[1..] == rest[1..];
      if |rest| == 1 {
        assert s == [s[0]] + s[1..];
      } else {
        assert Join(rest, sep) == rest[0] + [sep] + Join(rest[1..], sep);
        assert s == [s[0]] + s[1..];
      }
      forall k | 0 <= k < |parts|
        ensures Free(parts[k], sep)
      {
        if k > 0 {
          assert parts[k] == rest[k];
        }
      }
    }
  }

  /** Splitting a separator-free head followed by a separator peels off exactly that head. */
  lemma {:induction false} SplitAfterHead(a: string, b: string, sep: char)
    requires Free(a, sep)
    ensures Split(a + [sep] + b, sep) == [a] + Split(b, sep)
    decreases |a|
  {
    if |a| == 0 {
      assert a + [sep] + b == [sep] + b;
      assert ([sep] + b)[1..] == b;
    } else {
      SplitAfterHead(a[1..], b, sep);
      var s := a + [sep] + b;
      assert s[0] == a[0];
      assert s[1..] == a[1..] + [sep] + b;
      assert [a[0]] + a[1..] == a;
    }
  }

  /** A separator-free string is a single piece. */
  lemma {:induction false} SplitFree(s: string, sep: char)
    requires Free(s, sep)
    ensures Split(s, sep) == [s]
    decreases |s|
  {
    if |s| > 0 {
      SplitFree(s[1..], sep);
      assert [s[0]] + s[1..] == s;
    }
  }
}

=== FILE: user_management.dfy ===
/**
 * The admin's user list: the case-insensitive search over names, email and username, and the
 * local list kept in step after an edit or a creation.
 */
module UserManagement {
  import opened Domain
  import opened Store
  import Seqs
  import Text
  import Ledger
  import Accounts

  /** The list `mockFetchAllUsers` returns: every stored record, in listing order. */
  function Listing(st: Store): (us: seq<User>)
    requires Valid(st)
    ensures |us| == |st.order|
    ensures forall k | 0 <= k < |us| :: us[k] == st.users[st.order[k]] && us[k].id == st.order[k]
  {
    seq(|st.order|, k requires 0 <= k < |st.order| => st.users[st.order[k]])
  }

  /** A user matches an already lower-cased term when it occurs in one of four lower-cased fields. */
  predicate MatchesLowered(u: User, t: string) {
    || Text.Contains(Text.ToLower(u.firstName), t)
    || Text.Contains(Text.ToLower(u.lastName), t)
    || Text.Contains(Text.ToLower(u.email), t)
    || Text.Contains(Text.ToLower(u.username), t)
  }

  /** A user matches a search term when the lower-cased term occurs in one of the lower-cased fields. */
  predicate Matches(u: User, term: string) {
    MatchesLowered(u, Text.ToLower(term))
  }

  /** `filteredUsers`: the users that match the search term, in list order. */
  function FilterUsers(users: seq<User>, term: string): (r: seq<User>)
    ensures forall j | 0 <= j < |r| :: r[j] in users && Matches(r[j], term)
    ensures forall j | 0 <= j < |users| :: users[j] in r <==> Matches(users[j], term)
  {
    var t := Text.ToLower(term);
    Seqs.Filter(users, (u: User) => MatchesLowered(u, t))
  }

  /** The search keeps each matching user as many times as the list holds it, and no other. */
  lemma FilterUsersCounts(users: seq<User>, term: string)
    ensures forall u :: multiset(FilterUsers(users, term))[u] == if Matches(u, term) then multiset(users)[u] else 0
  {
    var t := Text.ToLower(term);
    Seqs.FilterCounts(users, (u: User) => MatchesLowered(u, t));
  }

  /** The search keeps the order of the list: its result is a subsequence of it. */
  lemma FilterKeepsOrder(users: seq<User>, term: string)
    ensures Seqs.IsSubsequence(FilterUsers(users, term), users)
  {
    var t := Text.ToLower(term);
    Seqs.FilterIsSubsequence(users, (u: User) => MatchesLowered(u, t));
  }

  /** An empty search shows every user. */
  lemma EmptySearchKeepsAll(users: seq<User>)
    ensures FilterUsers(users, "") == users
  {
    forall j | 0 <= j < |users|
      ensures Matches(users[j], "")
    {
      assert Text.OccursAt(Text.ToLower(users[j].firstName), "", 0);
    }
    Seqs.FilterAll(users, (u: User) => MatchesLowered(u, Text.ToLower("")));
  }

  /** Search terms that differ only in the case of ASCII letters give the same result. */
  lemma SearchIgnoresCase(users: seq<User>, a: string, b: string)
    requires Text.ToLower(a) == Text.ToLower(b)
    ensures FilterUsers(users, a) == FilterUsers(users, b)
  {
  }

  /** `handleUserUpdate`: the entries with the edited user's id are replaced by the edited record. */
  function ReplaceUser(users: seq<User>, updated: User): (r: seq<User>)
    ensures |r| == |users|
    ensures forall j | 0 <= j < |r| :: users[j].id == updated.id ==> r[j] == updated
    ensures forall j | 0 <= j < |r| :: users[j].id != updated.id ==> r[j] == users[j]
  {
    seq(|users|, j requires 0 <= j < |users| => if users[j].id == updated.id then updated else users[j])
  }

  /** `handleUserCreated`: the new user goes to the end of the list. */
  function AppendUser(users: seq<User>, created: User): (r: seq<User>)
    ensures |r| == |users| + 1 && r[..|users|] == users && r[|users|] == created
  {
    users + [created]
  }

  /** Replacing the same record twice is replacing it once. */
  lemma ReplaceIdempotent(users: seq<User>, updated: User)
    ensures ReplaceUser(ReplaceUser(users, updated), updated) == ReplaceUser(users, updated)
  {
  }

  /**
   * After an admin edit that the backend accepted, replacing the edited record in the listing
   * fetched before gives the listing the backend would now return.
   */
  lemma EditKeepsListingInStep(st: Store, userId: UserId, patch: Ledger.AdminPatch, stamp: Ledger.Stamp)
    requires Valid(st)
    ensures var r := Ledger.AdminUpdateUser(st, userId, patch, stamp);
            r.outcome.Ok? ==> ReplaceUser(Listing(st), r.outcome.value) == Listing(r.after)
  {
  }

  /** A completed registration adds the new account at the end of the listing. */
  lemma RegistrationAppendsToListing(st: Store, token: string, millis: string)
    requires Valid(st) && Accounts.NewUserId(millis) !in st.users
    ensures var r := Accounts.FinalizePayment(st, token, millis);
            r.outcome.Ok? ==> Listing(r.after) == AppendUser(Listing(st), r.after.users[Accounts.NewUserId(millis)])
  {
  }

  /** A created user shows in the search exactly when it matches the term; the earlier results are kept. */
  lemma CreatedUserInSearch(users: seq<User>, created: User, term: string)
    ensures FilterUsers(AppendUser(users, created), term)
            == FilterUsers(users, term) + (if Matches(created, term) then [created] else [])
  {
    var t := Text.ToLower(term);
    Seqs.FilterAppend(users, [created], (u: User) => MatchesLowered(u, t));
  }
}

=== FILE: validation.dfy ===
/**
 * The client-side input validators of the API module: the injection screen, and the email,
 * username and password checks built on it. A failed check is an `Outcome` carrying the
 * error whose message the validator throws.
 */
module Validation {
  import opened Wrappers
  import opened Text
  import Seqs

  datatype ValidationError =
    | InvalidCharacters(field: string)
    | MalformedEmail
    | MalformedUsername
    | PasswordTooShort

  /** The message text each validator throws. */
  function Message(e: ValidationError): string {
    match e
    case InvalidCharacters(field) => field + " contains invalid characters."
    case MalformedEmail => "Please enter a valid email address."
    case MalformedUsername =>
      "Username must be 3-20 characters and contain only letters, numbers, and underscores."
    case PasswordTooShort => "Password must be at least 8 characters long."
  }

  // ---------------------------------------------------------------------------------------
  // The injection pattern, alternative by alternative.
  // ---------------------------------------------------------------------------------------

  /** The literal alternatives: a quote, a double quote, `--`, `;`, `/*` or `*/`. */
  predicate HasQuoteOrCommentToken(s: string) {
    || Contains(s, "'")
    || Contains(s, "\"")
    || Contains(s, "--")
    || Contains(s, ";")
    || Contains(s, "/*")
    || Contains(s, "*/")
  }

  /** The characters the regular-expression `.` refuses to match. */
  predicate IsLineTerminator(c: char) {
    c == '\n' || c == '\r' || c == '\U{2028}' || c == '\U{2029}'
  }

  /** `.*=` matched from position `j`: an `=` at or after `j` with no line terminator before it. */
  predicate EqualsAhead(s: string, j: nat)
    decreases |s| - j
  {
    j < |s| && (s[j] == '=' || (!IsLineTerminator(s[j]) && EqualsAhead(s, j + 1)))
  }

  /** `\b` at position `p`: exactly one of the characters around `p` is a word character. */
  predicate BoundaryAt(s: string, p: int)
    requires 0 <= p <= |s|
  {
    (0 < p && IsWordChar(s[p - 1])) != (p < |s| && IsWordChar(s[p]))
  }

  /** The upper-case keyword `kw` occurs at position `i`, ignoring case (the pattern's `i` flag). */
  predicate KeywordAt(s: string, i: nat, kw: string) {
    i + |kw| <= |s| && forall m | 0 <= m < |kw| :: UpperChar(s[i + m]) == kw[m]
  }

  /** The alternative `\b(OR|AND)\b.*=` matches starting at position `i`. */
  predicate KeywordAssignmentAt(s: string, i: nat) {
    || (KeywordAt(s, i, "OR") && BoundaryAt(s, i) && BoundaryAt(s, i + 2) && EqualsAhead(s, i + 2))
    || (KeywordAt(s, i, "AND") && BoundaryAt(s, i) && BoundaryAt(s, i + 3) && EqualsAhead(s, i + 3))
  }

  predicate KeywordAssignment(s: string) {
    exists i | 0 <= i < |s| :: KeywordAssignmentAt(s, i)
  }

  /** `hasPotentialSqlInjection`: the empty string passes, any other string is matched against the pattern. */
  predicate HasPotentialSqlInjection(s: string) {
    s != "" && (HasQuoteOrCommentToken(s) || KeywordAssignment(s))
  }

  /** `validateInput` on a string value. */
  function ValidateInput(value: string, field: string): (r: Outcome<ValidationError>)
    ensures r.Fail? <==> HasPotentialSqlInjection(value)
    ensures r.Fail? ==> r.error == InvalidCharacters(field)
    ensures value == "" ==> r == Pass
  {
    if HasPotentialSqlInjection(value) then Fail(InvalidCharacters(field)) else Pass
  }

  /** The keyword alternative needs the keyword as a whole word: `admin or x=1` is refused. */
  lemma StandaloneKeywordRefused()
    ensures ValidateInput("admin or x=1", "Username") == Fail(InvalidCharacters("Username"))
  {
    var s := "admin or x=1";
    assert EqualsAhead(s, 10) && EqualsAhead(s, 9) && EqualsAhead(s, 8);
    assert KeywordAssignmentAt(s, 6);
  }

  /** A keyword inside a longer word does not count: `vendor=1` passes though it holds `or` and an `=`. */
  lemma EmbeddedKeywordAllowed()
    ensures ValidateInput("vendor=1", "Username") == Pass
  {
    var t := "vendor=1";
    var ok := (c: char) => c != '\'' && c != '"' && c != '-' && c != ';' && c != '/' && c != '*';
    AbsentLead(t, "'", ok);
    AbsentLead(t, "\"", ok);
    AbsentLead(t, "--", ok);
    AbsentLead(t, ";", ok);
    AbsentLead(t, "/*", ok);
    AbsentLead(t, "*/", ok);
    forall i | 0 <= i < |t|
      ensures !KeywordAssignmentAt(t, i)
    {
      assert forall j | 0 <= j < |t| :: UpperChar(t[j]) != 'A' && (j != 4 ==> UpperChar(t[j]) != 'O');
      if KeywordAt(t, i, "OR") {
        assert UpperChar(t[i]) == "OR"[0];
        assert !BoundaryAt(t, 4);
      }
    }
  }

  /** Without any `=` in the string, the keyword alternative cannot complete. */
  lemma {:induction false} NoEqualsAhead(s: string, j: nat)
    requires forall i | 0 <= i < |s| :: s[i] != '='
    ensures !EqualsAhead(s, j)
    decreases |s| - j
  {
    if j < |s| {
      NoEqualsAhead(s, j + 1);
    }
  }

  /** A string made only of word characters never trips the injection screen. */
  lemma WordStringIsSafe(s: string)
    requires forall i | 0 <= i < |s| :: IsWordChar(s[i])
    ensures !HasPotentialSqlInjection(s)
  {
    AbsentLead(s, "'", IsWordChar);
    AbsentLead(s, "\"", IsWordChar);
    AbsentLead(s, "--", IsWordChar);
    AbsentLead(s, ";", IsWordChar);
    AbsentLead(s, "/*", IsWordChar);
    AbsentLead(s, "*/", IsWordChar);
    forall i | 0 <= i < |s|
      ensures !KeywordAssignmentAt(s, i)
    {
      NoEqualsAhead(s, i + 2);
      NoEqualsAhead(s, i + 3);
    }
  }

  // ---------------------------------------------------------------------------------------
  // Email.
  // ---------------------------------------------------------------------------------------

  /** The regular-expression class `\s`. */
  predicate IsWhitespace(c: char) {
    || c == '\t' || c == '\n' || c == '\U{000B}' || c == '\U{000C}' || c == '\r' || c == ' '
    || c == '\U{00A0}' || c == '\U{1680}' || ('\U{2000}' <= c <= '\U{200A}')
    || c == '\U{2028}' || c == '\U{2029}' || c == '\U{202F}' || c == '\U{205F}'
    || c == '\U{3000}' || c == '\U{FEFF}'
  }

  /** The class `[^\s@]`. */
  predicate IsPlain(c: char) { !IsWhitespace(c) && c != '@' }

  predicate AllPlain(s: string) { forall i | 0 <= i < |s| :: IsPlain(s[i]) }

  /** The pattern `^[^\s@]+@[^\s@]+\.[^\s@]+$`, matched by locating the first `@`. */
  predicate MatchesEmailPattern(s: string) {
    var at := Seqs.FirstIndex(s, (c: char) => c == '@');
    && 0 < at
    && AllPlain(s[..at])
    && AllPlain(s[at + 1..])
    && exists k | at + 1 < k < |s| - 1 :: s[k] == '.'
  }

  /** A well-formed address: no whitespace, exactly one `@` with something before it, and a `.` strictly inside the domain. */
  ghost predicate WellFormedEmail(s: string) {
    && (forall i | 0 <= i < |s| :: !IsWhitespace(s[i]))
    && exists a | 0 < a < |s| ::
         && s[a] == '@'
         && (forall i | 0 <= i < |s| && i != a :: s[i] != '@')
         && (exists k | a + 1 < k < |s| - 1 :: s[k] == '.')
  }

  lemma EmailPatternMeaning(s: string)
    ensures MatchesEmailPattern(s) <==> WellFormedEmail(s)
  {
    var at := Seqs.FirstIndex(s, (c: char) => c == '@');
    if MatchesEmailPattern(s) {
      forall i | 0 <= i < |s|
        ensures !IsWhitespace(s[i]) && (i != at ==> s[i] != '@')
      {
        if i < at {
          assert s[..at][i] == s[i];
        } else if i > at {
          assert s[at + 1..][i - at - 1] == s[i];
        }
      }
    }
    if WellFormedEmail(s) {
      var a :| 0 < a < |s| && s[a] == '@' && (forall i | 0 <= i < |s| && i != a :: s[i] != '@')
               && (exists k | a + 1 < k < |s| - 1 :: s[k] == '.');
      assert at == a;
    }
  }

  /** `validateEmail`: the injection screen first, then the address pattern. */
  function ValidateEmail(email: string): (r: Outcome<ValidationError>)
    ensures r == Pass <==> !HasPotentialSqlInjection(email) && WellFormedEmail(email)
    ensures HasPotentialSqlInjection(email) ==> r == Fail(InvalidCharacters("Email"))
    ensures !HasPotentialSqlInjection(email) && !WellFormedEmail(email) ==> r == Fail(MalformedEmail)
  {
    EmailPatternMeaning(email);
    if ValidateInput(email, "Email").Fail? then ValidateInput(email, "Email")
    else if !MatchesEmailPattern(email) then Fail(MalformedEmail)
    else Pass
  }

  // ---------------------------------------------------------------------------------------
  // Username and password.
  // ---------------------------------------------------------------------------------------

  /** The pattern `^[a-zA-Z0-9_]{3,20}$`. */
  predicate MatchesUsernamePattern(s: string) {
    3 <= |s| <= 20 && forall i | 0 <= i < |s| :: IsWordChar(s[i])
  }

  /** `validateUsername`: the injection screen can never reject a name the pattern accepts, so the pattern alone decides. */
  function ValidateUsername(username: string): (r: Outcome<ValidationError>)
    ensures r == Pass <==> 3 <= |username| <= 20 && forall i | 0 <= i < |username| :: IsWordChar(username[i])
    ensures HasPotentialSqlInjection(username) ==> r == Fail(InvalidCharacters("Username"))
    ensures r.Fail? && !HasPotentialSqlInjection(username) ==> r == Fail(MalformedUsername)
  {
    UsernamePatternIsSafe(username);
    if ValidateInput(username, "Username").Fail? then ValidateInput(username, "Username")
    else if !MatchesUsernamePattern(username) then Fail(MalformedUsername)
    else Pass
  }

  lemma UsernamePatternIsSafe(s: string)
    ensures MatchesUsernamePattern(s) ==> !HasPotentialSqlInjection(s)
  {
    if MatchesUsernamePattern(s) {
      WordStringIsSafe(s);
    }
  }

  /** `validatePassword`: the injection screen, then a minimum length of 8. */
  function ValidatePassword(password: string): (r: Outcome<ValidationError>)
    ensures |password| < 8 ==> r.Fail?
    ensures r == Pass <==> !HasPotentialSqlInjection(password) && 8 <= |password|
    ensures HasPotentialSqlInjection(password) ==> r == Fail(InvalidCharacters("Password"))
    ensures !HasPotentialSqlInjection(password) && |password| < 8 ==> r == Fail(PasswordTooShort)
  {
    if ValidateInput(password, "Password").Fail? then ValidateInput(password, "Password")
    else if |password| < 8 then Fail(PasswordTooShort)
    else Pass
  }
}

=== FILE: withdraw_tab.dfy ===
/**
 * The dashboard's withdrawal tab: which panel a user sees, the withdrawal form's own checks
 * before it calls `mockWithdraw`, and the Stripe connection button.
 */
module WithdrawTab {
  import opened Wrappers
  import opened Domain
  import opened Store
  import opened Ledger
  import Kyc

  const NoPinError: string := "Please set up a withdrawal PIN in Settings first."
  const OverBalanceError: string := "Withdrawal amount cannot exceed your available balance."

  /** What the tab shows below the balance. */
  datatype Panel = WithdrawalForm | ConnectStripePrompt | WithdrawalsLocked

  /** The panel for the signed-in user (absent while signed out). */
  function PanelFor(user: Option<User>): (p: Panel)
    ensures p == WithdrawalForm <==> user.Some? && user.value.kycStatus == Verified && user.value.payoutConnected
    ensures p == ConnectStripePrompt <==> user.Some? && user.value.kycStatus == Verified && !user.value.payoutConnected
    ensures p == WithdrawalsLocked <==> user.None? || user.value.kycStatus != Verified
  {
    if user.Some? && user.value.kycStatus == Verified then
      (if user.value.payoutConnected then WithdrawalForm else ConnectStripePrompt)
    else WithdrawalsLocked
  }

  /** What the form is given: the balance fetched when the tab opened (0 if none), and the user's switches. */
  datatype FormProps = FormProps(balance: Money, hasPin: bool, is2faEnabled: bool)

  function PropsFor(u: User, fetched: Option<Money>): (props: FormProps)
    ensures props.hasPin == u.hasPin && props.is2faEnabled == u.is2faEnabled
    ensures props.balance == if fetched.Some? then fetched.value else 0
  {
    FormProps(fetched.GetOr(0), u.hasPin, u.is2faEnabled)
  }

  /** The form's fields; an empty amount field is `None`. */
  datatype Form = Form(amount: Option<Money>, pin: string, twoFactorToken: string, message: string, error: string)

  /** The request the form sends: always fiat, with the 2FA token only when 2FA is on. */
  function RequestFrom(props: FormProps, form: Form): (input: WithdrawalInput)
    requires form.amount.Some?
    ensures input.kind == Fiat && input.amount == form.amount.value && input.pin == form.pin
    ensures input.twoFactorToken.Some? <==> props.is2faEnabled
    ensures props.is2faEnabled ==> input.twoFactorToken == Some(form.twoFactorToken)
    ensures input.network == None && input.address == None
  {
    WithdrawalInput(Fiat, form.amount.value, form.pin,
                    if props.is2faEnabled then Some(form.twoFactorToken) else None, None, None)
  }

  /** The form and the backend after a submission, and whether the backend was called. */
  datatype Submitted = Submitted(form: Form, after: Store, called: bool)

  /**
   * Submitting the form (the amount field is required, so it is filled): without a PIN, or for
   * more than the displayed balance, the form refuses on its own; otherwise it calls the backend,
   * clearing its fields on success and showing the backend's message on failure.
   */
  function Submit(st: Store, props: FormProps, form: Form, stamp: Stamp): (s: Submitted)
    requires Valid(st) && form.amount.Some?
    ensures !props.hasPin ==> s == Submitted(form.(error := NoPinError, message := ""), st, false)
    ensures props.hasPin && form.amount.value > props.balance ==>
              s == Submitted(form.(error := OverBalanceError, message := ""), st, false)
    ensures s.called <==> props.hasPin && form.amount.value <= props.balance
    ensures s.called ==>
              var r := Withdraw(st, RequestFrom(props, form), stamp);
              && s.after == r.after
              && (r.outcome.Ok? ==> s.form == Form(None, "", "", WithdrawalInitiated, ""))
              && (r.outcome.Err? ==> s.form == form.(error := Message(r.outcome.error), message := ""))
  {
    var cleared := form.(error := "", message := "");
    if !props.hasPin then Submitted(cleared.(error := NoPinError), st, false)
    else if form.amount.value > props.balance then Submitted(cleared.(error := OverBalanceError), st, false)
    else
      var r := Withdraw(st, RequestFrom(props, form), stamp);
      match r.outcome
      case Ok(message) => Submitted(Form(None, "", "", message, ""), r.after, true)
      case Err(e) => Submitted(cleared.(error := Message(e)), r.after, true)
  }

  /**
   * With the displayed balance up to date, the backend never refuses the form's request for lack
   * of funds: the form has already checked the same bound.
   */
  lemma UpToDateBalanceNeverOverdraws(st: Store, props: FormProps, form: Form, stamp: Stamp)
    requires Valid(st) && form.amount.Some? && props.balance == Current(st).balance
    ensures Submit(st, props, form, stamp).form.error != Message(InsufficientBalance)
  {
    var s := Submit(st, props, form, stamp);
    if s.called {
      var input := RequestFrom(props, form);
      var r := Withdraw(st, input, stamp);
      if r.outcome.Err? {
        assert !CodeValid(input.pin) || (Current(st).is2faEnabled && !TokenValid(input.twoFactorToken))
               || (input.kind == Crypto && !(Filled(input.network) && Filled(input.address)));
      }
    }
  }

  /**
   * The form's displayed balance is fetched once when the tab opens. A stale figure above the
   * real balance lets the request through to the backend, which refuses it there.
   */
  lemma StaleBalanceRefusedByBackend(st: Store, props: FormProps, form: Form, stamp: Stamp)
    requires Valid(st) && form.amount.Some? && props.hasPin
    requires Current(st).balance < form.amount.value <= props.balance
    requires CodeValid(form.pin) && (Current(st).is2faEnabled ==> props.is2faEnabled && CodeValid(form.twoFactorToken))
    ensures var s := Submit(st, props, form, stamp);
            s.called && s.after == st && s.form.error == Message(InsufficientBalance)
  {
  }

  /** The form's fields are cleared after a request the backend accepted. */
  lemma AcceptedRequestClearsForm(st: Store, props: FormProps, form: Form, stamp: Stamp)
    requires Valid(st) && form.amount.Some?
    requires props.hasPin && form.amount.value <= props.balance
    requires Admissible(Current(st), RequestFrom(props, form))
    ensures var s := Submit(st, props, form, stamp);
            && s.form.amount == None && s.form.pin == "" && s.form.twoFactorToken == ""
            && s.form.error == "" && s.form.message == WithdrawalInitiated
            && Current(s.after).balance == Current(st).balance - form.amount.value
  {
  }

  /**
   * The Stripe button: the backend marks the payout connected, and the signed-in user's local
   * copy is updated to match (a signed-out tab has no copy to update).
   */
  function ConnectStripe(st: Store, user: Option<User>): (r: (Store, Option<User>))
    requires Valid(st)
    ensures r.0 == Kyc.ConnectPayout(st).after
    ensures r.1.Some? <==> user.Some?
    ensures user.Some? ==> r.1.value == user.value.(payoutConnected := true)
  {
    (Kyc.ConnectPayout(st).after, if user.Some? then Some(user.value.(payoutConnected := true)) else None)
  }

  /** A verified user who connects Stripe is shown the withdrawal form. */
  lemma ConnectingUnlocksForm(st: Store, u: User)
    requires Valid(st) && u.kycStatus == Verified
    ensures PanelFor(ConnectStripe(st, Some(u)).1) == WithdrawalForm
  {
  }
}

=== FILE: wrappers.dfy ===
/** Failure-carrying datatypes shared by every operation of the model. */
module Wrappers {

  /** A value that may be absent: the model of an optional (`?:`) field. */
  datatype Option<+T> = None | Some(value: T) {

    /** The carried value, or `default` when absent. */
    function GetOr(default: T): T {
      match this
      case Some(v) => v
      case None => default
    }
  }

  /** The outcome of an operation that either yields a value or fails. */
  datatype Result<+R, +E> = Ok(value: R) | Err(error: E)

  /** The outcome of a check that either passes or fails with an error. */
  datatype Outcome<+E> = Pass | Fail(error: E)
}
